=== FILE: README.md ===
# Offline-first inspection records: a Dafny model

This project models the core of a field-inspection web app. An inspector picks a
location, which is a sheet of a remote spreadsheet. They then browse and edit the
inspection records of that location and save them. The app writes every save to the
browser's key-value store first and queues it for sending. It sends it when the device
is online, and a manual sync drains the queue and refreshes the records from the cloud.

The model covers five parts of the app:

- the screen state of `App.tsx` (locations, chosen location, records shown, cursor,
  count of unsent records) as the class `Sync.App`;
- the store of `services/storageService.ts` as the class `Storage.LocalStore`, with one
  slot per location, one pending queue and one location cache;
- the two merges of the load effect, as loop methods proved equal to specification
  functions (`Merge`);
- the photo list and the Drive display link of `components/PhotoSection.tsx` (`Photos`);
- the date field and toggle of `components/FormComponents.tsx` (`DateFields`).

The network, `navigator.onLine`, the clock, `Date.now()`, `Math.random()` and whether
each store write succeeds are parameters of the operations that meet them.

Modules:

| file | module | what it holds |
|---|---|---|
| wrappers.dfy | Wrappers | `Option` |
| digits.dfy | Digits | `${n}` printing, `Number` of a digit string, `('0' + n).slice(-2)` |
| records.dfy | Records | `InspectionRecord`, `INITIAL_RECORD_STATE`, the stable sort by `createdAt`, id lookup, upsert |
| storage.dfy | Storage | stored slots, the defensive readers, the queue operations, `LocalStore` |
| merge.dfy | Merge | stored + pending merge, cloud + pending merge |
| cursor.dfy | Cursor | new mode, empty start, current and previous record, navigation, cursor reset |
| synthesis.dfy | Synthesis | `getToday`, the readable id, the new record the form starts from |
| sync.dfy | Sync | the screen as a class: load, cloud apply, save, manual sync, buttons |
| photos.dfy | Photos | photo sanitising, the three-photo cap, removal, Drive thumbnail rewrite |
| date_fields.dfy | DateFields | `parseDate`, `formatDate`, `split('-')`, `Toggle` |

## Model

| member | source | states |
|---|---|---|
| Digits.NatToString | App.tsx:36 | `${n}` is a non-empty digit string; it starts with '0' only for 0; it has one digit exactly below 10 and three or more only from 100 on |
| Digits.Pad2 | App.tsx:34-35 | `('0' + n).slice(-2)` always yields exactly two digits |
| Digits.DigitsOfNatToString | components/FormComponents.tsx:22 | `Number` applied to the printed form of `n` gives `n` back |
| Digits.NatToStringOfDigits | components/FormComponents.tsx:30-33 | printing the value of a digit string without a leading zero gives that string back |
| Digits.Pad2RoundTrip | components/FormComponents.tsx:31-32 | below 100, the two padded digits read back as the number |
| Digits.Pad2OfDigits | components/FormComponents.tsx:31-32 | every two-digit string is the padding of its own value, and that value is below 100 |
| Records.InsertByCreated | services/storageService.ts:24 | one stable insertion step adds exactly the element: the multiset grows by `x` |
| Records.InsertKeepsSorted | services/storageService.ts:24 | the insertion step keeps a list ascending by `createdAt \|\| 0` |
| Records.SortByCreated | services/storageService.ts:24 | the sort result is ascending by `createdAt \|\| 0` and is a permutation of its input |
| Records.SortSortedIdentity | services/storageService.ts:24 | a list already in order is left exactly as it is |
| Records.SortIsStable | services/storageService.ts:24 | the sort is stable: for every key, the records with that key come out in the order they went in |
| Records.InsertIsStable | services/storageService.ts:24 | one insertion step places the new element after every element with its key |
| Records.WithKeyConcat | services/storageService.ts:24 | selecting the records of one key distributes over concatenation |
| Records.SortKeepsUniqueIds | App.tsx:122 | sorting never creates two entries with one id |
| Records.IndexOfId | App.tsx:238 | `findIndex` returns the first position holding the id, and returns -1 exactly when no entry holds it |
| Records.KeepIdentified | services/storageService.ts:23 | the filter keeps exactly the entries with a truthy id, and changes nothing when all have one |
| Records.KeepIdentifiedConcat | services/storageService.ts:23 | the filter keeps order and multiplicity: a concatenation is filtered part by part |
| Records.Upsert | App.tsx:237-244 | an existing id is replaced at its first position, with the length and every other entry unchanged; a new id is appended after an unchanged prefix |
| Records.UpsertIdempotent | App.tsx:237-244 | saving the same record twice gives the list of saving it once |
| Records.UpsertSpec | App.tsx:119-120 | over unique ids, `map.set` keeps ids unique; afterwards the list holds the new record and the untouched entries of other ids, nothing else |
| Storage.SafeParse | services/storageService.ts:4-12 | absent or unparsable text reads as the empty array; a parsed array and a parsed non-array both pass through unchanged |
| Storage.ValidRecords | services/storageService.ts:23 | exactly the object entries with a truthy id survive the filter, and no more entries than were stored |
| Storage.ReadRecords | services/storageService.ts:15-29 | a read is always sorted, with truthy ids; a non-array slot reads as empty; an array reads as a permutation of its valid entries |
| Storage.ReadPending | services/storageService.ts:39-49 | every queue entry read has a truthy id; a non-array slot reads as empty |
| Storage.ValidRecordsConcat | services/storageService.ts:23 | the validity filter keeps order and multiplicity: a concatenation of stored entries is filtered part by part |
| Storage.ReadPendingInOrder | services/storageService.ts:39-49 | the queue read keeps stored order: two stored runs read as each run in turn, and a single entry reads as its record exactly when it is an object with a truthy id |
| Storage.ReadPendingUnsorted | services/storageService.ts:15-49 | the queue read is the record read's filter without its sort: sorting it gives what `getRecords` reads from the same slot |
| Storage.ReadLocations | services/storageService.ts:76-84 | the location cache reads as the stored array, and as empty for anything else |
| Storage.RemoveId | services/storageService.ts:68 | the filter keeps exactly the entries with a different id |
| Storage.RemoveIdConcat | services/storageService.ts:68 | the filter keeps order: a concatenated queue is filtered part by part |
| Storage.RemoveIdIdempotent | services/storageService.ts:66-73 | removing an id twice is removing it once |
| Storage.RemoveIdCommutes | services/storageService.ts:68 | removals of two ids commute |
| Storage.RemoveIdAbsent | services/storageService.ts:68 | removing an id that is not queued leaves the queue unchanged |
| Storage.RemoveIdKeepsUniqueIds | services/storageService.ts:68 | removal keeps the one-entry-per-id invariant |
| Storage.RemoveHead | App.tsx:196-198 | in a queue with one entry per id, removing the head's id removes just the head |
| Storage.EnqueueSpec | services/storageService.ts:53-58 | after `addPending` the record, tagged with the location, is the only entry of its id and the last one; the other ids' entries are those of before, in order; unique ids stay unique |
| Storage.EnqueueKeepsUniqueIds | services/storageService.ts:55-58 | `addPending` preserves at most one queue entry per id |
| Storage.ValidRecordsOfStringify | services/storageService.ts:33 | a written record list parses back to its entries with a truthy id |
| Storage.SetThenGetRecords | services/storageService.ts:15-33 | `setRecords` then `getRecords` yields the valid written entries sorted, and an ordered, fully identified list exactly |
| Storage.EnqueueReadBack | services/storageService.ts:51-59 | the written queue reads back as the enqueued queue; a record with an empty id is filtered out on reading |
| Storage.RemoveReadBack | services/storageService.ts:66-73 | the queue written by `removePending` reads back as written |
| Storage.LocalStore.Open | services/storageService.ts:14 | the store opens over the slots the device holds |
| Storage.LocalStore.GetRecords | services/storageService.ts:15-29 | every record read is sorted and identified |
| Storage.LocalStore.GetPending | services/storageService.ts:39-49 | every queue read holds identified entries only |
| Storage.LocalStore.SetRecords | services/storageService.ts:31-37 | a successful write replaces only that location's slot and reads back as the sorted valid entries; a failed write leaves the slot as it was |
| Storage.LocalStore.AddPending | services/storageService.ts:51-64 | a successful write stores the enqueued queue and keeps one entry per id; a failed write changes nothing |
| Storage.LocalStore.RemovePending | services/storageService.ts:66-73 | a successful write stores the filtered queue; a failed write changes nothing |
| Storage.LocalStore.SetLocations | services/storageService.ts:86-92 | after a successful write `getLocations` returns that list; a failed write changes nothing |
| Merge.ForLocation | App.tsx:85 | the location's pending records are exactly the queue entries whose `sheetName` is the location |
| Merge.MergeLocal | App.tsx:92-99 | the push loop then sort computes the local merge |
| Merge.AppendMissingKeeps | App.tsx:92-98 | the push loop keeps the stored list as an unchanged prefix and adds only pending records |
| Merge.AppendMissingCount | App.tsx:93-98 | a truthy pending id missing from storage gains exactly one entry; every other id keeps its stored count |
| Merge.LocalMergeKeeps | App.tsx:84-99 | the local merge is sorted, contains every stored record (with multiplicity) and adds only pending ones |
| Merge.LocalMergeCount | App.tsx:93-99 | after the sort, a pending record whose id was missing appears exactly once, and stored ids keep their count |
| Merge.LocalMergeNothingPending | App.tsx:92-99 | with nothing pending, an ordered stored list is shown unchanged |
| Merge.LastWithId | App.tsx:119-120 | the record a run of `map.set` calls leaves for an id comes from the input and carries that id, and exists exactly when the id occurs |
| Merge.LastWithIdIsLast | App.tsx:119-120 | that record is the last one holding the id: it sits at a position after which no entry has that id |
| Merge.MergeRemote | App.tsx:116-122 | the two `forEach` loops over the map, then the sort, compute the remote merge |
| Merge.FillMapSpec | App.tsx:116-120 | filling the map keeps ids unique and truthy; each id holds the last record given for it, else the record it held |
| Merge.RemoteMergeSpec | App.tsx:115-122 | the remote merge is sorted with unique truthy ids; a record is present iff it is the last pending one of its id, or its id is not pending and it is the last cloud one; every truthy id of either input is present |
| Merge.MergedIdPresent | App.tsx:119-122 | a truthy id is in the merge iff it is in the cloud list or the pending list |
| Merge.RemoteMergeNothingPending | App.tsx:116-122 | with nothing pending, an ordered cloud list with unique truthy ids is taken unchanged |
| Merge.FillMapOfUnique | App.tsx:119 | a list with unique truthy ids fills the map in its own order |
| Cursor.CurrentRecord | App.tsx:152 | there is a current record exactly when the cursor is within the list, and it is the record under the cursor |
| Cursor.PrevRecord | App.tsx:277-279 | the previous record always comes from the list, and is absent exactly for the empty list and for the first position |
| Cursor.ModesMatchView | App.tsx:148-152 | new mode is the slot past the end of a non-empty list, empty start is the empty list, and otherwise the record under the cursor is current |
| Cursor.PrevRecordSpec | App.tsx:277-279 | in new mode the previous record is the last one; on a shown record above 0 it is the one before the cursor |
| Cursor.ResetLandsOnLatest | App.tsx:104 | the reset cursor is in bounds and shows the last record, the one new mode offers as previous |
| Cursor.NavigationInBounds | App.tsx:359-386 | the buttons keep the cursor in `0..n`; back and forward undo each other when enabled; the new-record slot is new mode or empty start |
| Cursor.ManualSyncCursorEscapes | App.tsx:216 | as written, a sync that fetches nothing leaves the cursor at 1 over an empty list |
| Cursor.ManualSyncCursorCorrected | App.tsx:216 | the reset cursor stays in range of the fetched list and agrees with the source whenever the list is non-empty |
| Synthesis.TodayReadsBack | App.tsx:31-37 | the date field reads today's text back as the clock's date |
| Synthesis.StripDashes | App.tsx:171 | removing dashes leaves no dash and leaves dash-free text unchanged |
| Synthesis.StripDashesConcat | App.tsx:171 | dash removal distributes over concatenation |
| Synthesis.StripJoinedParts | App.tsx:171 | removing the dashes of dash-joined dash-free parts concatenates the parts |
| Synthesis.DatePartDigits | App.tsx:170-171 | the date part of an id is the year, then month and day as two digits each, and is all digits |
| Synthesis.UnderscoreSpaces | App.tsx:172 | after replacing whitespace runs no whitespace is left, and text without whitespace is unchanged |
| Synthesis.UnderscoreSpacesPrefix | App.tsx:172 | text without whitespace in front of the rest is kept as it is |
| Synthesis.UnderscoreSpacesRun | App.tsx:172 | one whole run of whitespace after whitespace-free text becomes exactly one underscore, and the replacement goes on after the run |
| Synthesis.LocationPart | App.tsx:172 | the location part is never empty and has no whitespace; it is "temp" for no location, and otherwise the location with its whitespace runs replaced |
| Synthesis.NewIdInjective | App.tsx:173-174 | for one location and day, two ids are equal only when their suffixes are |
| Synthesis.NewIdNoSpace | App.tsx:169-174 | a built id has no whitespace when the suffix has none |
| Synthesis.NewRecord | App.tsx:176-182 | the new record carries the built id, `createdAt = now`, today's date and the location; every other field is `INITIAL_RECORD_STATE`'s |
| Synthesis.FormFor | App.tsx:155-183 | the form shows the record under the cursor, and otherwise a new record |
| Photos.SafePhotos | App.tsx:158-160 | a non-array reads as no photos; the photos kept are exactly the object entries |
| Photos.SafePhotosConcat | App.tsx:159 | the filter keeps order and repeats: a concatenated list is sanitised part by part |
| Photos.SafePhotosSingle | App.tsx:159 | a single entry is kept exactly when it is an object |
| Photos.AddPhoto | components/PhotoSection.tsx:18-27 | a photo is refused (list unchanged) exactly at three or more; otherwise it is appended after the unchanged list |
| Photos.RemoveAt | App.tsx:439 | removal by position drops exactly that position; an index outside the list changes nothing |
| Photos.CapHolds | components/PhotoSection.tsx:18-21 | however many photos are chosen, the list fills up to three and never beyond, keeping earlier photos |
| Photos.RemoveUndoesAdd | App.tsx:438-439 | removing the photo just added restores the list |
| Photos.DisplaySource | components/PhotoSection.tsx:62 | the source is `url` if non-empty, else `data`, and is empty only when both are |
| Photos.IdRun | components/PhotoSection.tsx:70-72 | the captured id is the longest run of `[a-zA-Z0-9_-]` at that point |
| Photos.FindMatch | components/PhotoSection.tsx:70-72 | the match found is the leftmost position where the marker is followed by an id character, and there is none when no position matches |
| Photos.Capture | components/PhotoSection.tsx:70-72 | a capture is a non-empty run of id characters, present exactly when the pattern matches |
| Photos.DriveId | components/PhotoSection.tsx:68-78 | a "/d/" capture takes priority over an "id=" capture, and the id is empty exactly when neither matches |
| Photos.DisplayUrlUnchanged | components/PhotoSection.tsx:66-87 | a non-Drive source, and a Drive link with neither pattern, are shown unchanged |
| Photos.DisplayUrlFromPath | components/PhotoSection.tsx:70-83 | a Drive link with a "/d/" match becomes the thumbnail link of the id after the leftmost match |
| Photos.DisplayUrlFromQuery | components/PhotoSection.tsx:72-83 | a Drive link with only an "id=" match becomes the thumbnail link of the id after the leftmost "id=" |
| DateFields.FormatDate | components/FormComponents.tsx:28-34 | `formatDate` is "" exactly for no date; otherwise it is six characters longer than the printed year, with a dash before the day |
| DateFields.FormatDateShape | components/FormComponents.tsx:28-34 | a formatted date is the printed year, a dash, two digits, a dash and two digits |
| DateFields.Split | components/FormComponents.tsx:22 | `split('-')` yields at least one part, and no part holds a dash |
| DateFields.JoinSplit | components/FormComponents.tsx:22 | joining the parts with dashes gives the text back |
| DateFields.SplitThree | components/FormComponents.tsx:22 | three dash-free texts joined by dashes split into exactly those three parts |
| DateFields.ToNumber | components/FormComponents.tsx:22 | `Number(part)` is a number exactly for digit strings |
| DateFields.FullYear | components/FormComponents.tsx:24 | the `Date` constructor maps years 0 to 99 to 1900 onwards and keeps later years |
| DateFields.ParseDate | components/FormComponents.tsx:20-25 | `parseDate("")` is null; a date is produced iff year, month and day parts are all present, numeric and non-zero; the year is then at least 100 and the day at least 1 |
| DateFields.ParseDigitParts | components/FormComponents.tsx:22-24 | non-zero digit parts parse to (full year, month - 1, day) |
| DateFields.ParseFormatRoundTrip | components/FormComponents.tsx:20-34 | every calendar date from year 100 on is parsed back from its formatted text |
| DateFields.FormatParseRoundTrip | components/FormComponents.tsx:20-34 | a "YYYY-MM-DD" text of a calendar date, with a year of three or more digits and no leading zero, formats back unchanged |
| DateFields.ActiveOptions | components/FormComponents.tsx:97-98 | an option is drawn active exactly when it equals the value |
| DateFields.DefaultToggle | components/FormComponents.tsx:91-98 | with the default options, "ON" or "OFF" lights exactly that option and any other value lights none |
| Sync.QueuedGoesToSavedSheet | App.tsx:197 | a record queued by a save under one sheet is sent to that sheet whatever location is current at the sync, and after the other queued records |
| Sync.SyncedCountMisreports | App.tsx:196-213 | as written, the count shown after a sync can overstate the queue (a failed drain keeps the old count) and understate it (a full drain whose removal writes were dropped shows 0) |
| Sync.SyncedCountDrifts | App.tsx:196-213 | the count as written equals the queue left behind exactly when a failed drain removed nothing or a full drain removed everything |
| Sync.SyncedCountCorrected | App.tsx:196-213 | recounting the queue after the drain gives what is left: the unsent entries, or the whole queue when removals were dropped |
| Sync.SyncedCountCorrectedAgrees | App.tsx:196-213 | the recount agrees with the count as written in every case where the latter is right |
| Sync.App.constructor | App.tsx:16-21 | the screen starts with no locations, none chosen, no records, cursor 0 and nothing counted |
| Sync.App.InitLocations | App.tsx:40-71 | cached locations are offered and the first chosen; online, a non-empty fetch replaces them and is cached, and chooses its first only when the cache was empty; records and queue untouched |
| Sync.App.SelectLocation | App.tsx:295 | choosing a location changes only the location |
| Sync.App.LoadLocal | App.tsx:84-105 | with a location, the shown list is the local merge of the stored records with the location's queue, the cursor is reset to the last record, and the count is the whole queue; without one nothing changes |
| Sync.App.ApplyCloudFetch | App.tsx:109-129 | when online, fetched and still mounted, the remote merge of cloud and pending is shown and stored and the cursor reset; otherwise nothing changes; the queue is never touched |
| Sync.App.SaveLocally | App.tsx:235-254 | the record is upserted into the list; a new one is shown at the end; the list is stored and the record queued before any send; the count is the queue length |
| Sync.App.ShowSaved | App.tsx:237-254 | the screen half of the save: the upserted list, and the cursor on an appended record |
| Sync.App.WriteSaved | App.tsx:247-249 | the store half of the save: the list written for the location, the record enqueued, the queue counted |
| Sync.App.Save | App.tsx:226-266 | with no location nothing changes; otherwise the record gets the location's sheet and is saved locally and queued; only a successful send dequeues it, and offline or after a failed send it stays queued and the local write stands |
| Sync.App.SendSaved | App.tsx:256-264 | only a successful send removes the id from the queue and recounts; otherwise queue and count are unchanged |
| Sync.App.DrainPending | App.tsx:194-200 | the queue is sent in order and an entry is removed only after its send succeeded; the first failure stops the drain with the sent entries removed and the rest queued; the `saveRecord` calls made are the sent entries in queue order, then the rejected call for the entry that failed, each to its own non-empty sheet or else the current location |
| Sync.App.RemoveSent | App.tsx:197-198 | a sent record at the head of what is left leaves the queue |
| Sync.App.Refresh | App.tsx:201-216 | both fetches returning is what lets the sync finish; the locations step runs whenever the sheet names came back, and the records step only when the records did too, else records, cursor, count and slot are unchanged |
| Sync.App.RefreshLocations | App.tsx:202-206 | a non-empty fetched list of sheet names replaces the offered locations and is cached; an empty one changes nothing |
| Sync.App.RefreshRecords | App.tsx:209-216 | the fetched records replace the shown ones and are stored, the count drops to 0, and the cursor moves to the last fetched record only when there is one |
| Sync.App.ManualSync | App.tsx:186-224 | offline nothing changes and nothing is sent; online the queue drains in order, and the `saveRecord` calls are the drained entries, then the rejected one if any, each to its target sheet; after a failure nothing else changes; after a full drain the fetched records replace the shown ones without a merge and are stored and the count drops to 0; the cursor moves to the last fetched record only when there is one, so over an empty fetched list it leaves the list's range unless it was at 0 |
| Sync.App.Previous | App.tsx:359-360 | "previous" steps back only above 0, and keeps an in-range cursor in range |
| Sync.App.Next | App.tsx:385-386 | "next" steps forward only below the new-record slot, and keeps an in-range cursor in range |
| Sync.App.StartNew | App.tsx:310-312 | "new" moves the cursor to the new-record slot only when the button is shown |
| Sync.SaveShownRecordInPlace | App.tsx:237-244 | saving the shown record (the first with its id) replaces it in place, with the length and every other entry unchanged |
| Sync.CloudMergeIsStored | App.tsx:122-125 | the remote merge shown is exactly what a later read of the location's slot returns, with one entry per id |

## Left out

- The network client is not part of this model. Its outcomes are parameters:
  - `online` stands for `navigator.onLine`;
  - `sendOk` is whether `saveRecord` resolves;
  - `delivered` is how many queued sends succeed before the first failure;
  - `fetched`, `fetchedLocs` and `cloud` are the fetch results, and `None` means the call threw.
- The cloud list is taken as delivered. The client-side filter that drops fetched items without an id is not modelled. The remote merge drops them anyway, and the manual sync stores the list as given.
- Store writes can fail because the store is full. A single `storeOk` parameter stands for every write of one screen operation, so writes that fail independently within one operation are not modelled.
- Async interleaving, React effect scheduling, and the `syncing`, `saving`, `loadingData` and `loadingLocations` flags are left out. So are `alert` and `console` output. The `mounted` guard is a boolean parameter of `Sync.App.ApplyCloudFetch`.
- JSON is not modelled as text. A slot holds what parsing would give:
  - `Missing` for absent or empty text;
  - `Unparsable`;
  - `NonArray`;
  - an array of entries that are null, scalars or record objects.

  A record's `id` is text, so a truthy non-string id is not modelled.
- Only digit strings are numbers: `DateFields.ToNumber` reads signs, spaces, decimals, exponents and hexadecimal as NaN. `Number`'s full grammar is left out.
- DateFields.ParseDate: does not normalise an out-of-range month or day the way `Date` rolls it over. The round trips are stated for calendar dates only.
- Storage.LocalStore.Open: requires the stored queue to hold at most one entry per id. That is the invariant `addPending` maintains; a queue written by other means is not modelled.
- Editing the form (`updateForm`) is not modelled. The form's record is the `form` parameter of `Sync.App.Save`.
- `Sync.App.Save` returns only its outcome. It does not trace the one send it makes, which goes to the current location.
- `Date.now()`, `new Date()` and `Math.random().toString(36).substr(2, 5)` are not modelled. They are the parameters `now`, `clock` and `suffix`.
- The record's `photos` field is a list of photo objects. The sanitisation of a raw stored value (App.tsx:158-160) is `Photos.SafePhotos`, applied to a separate value type.
- The sort comparator's floating-point subtraction is modelled as comparison of unbounded integers. A missing `createdAt` counts as 0.
- The image service (`processImage`, EXIF reading, resizing) and the calendar and date picker components are not part of this model. Neither are the help modal, the `Card`/`FormInput` rendering, the toggle colours, nor the latitude, longitude and altitude display (floating point).

## Findings

| source | as written | input that shows it | evidently intended | confidence | as-written member | corrected member |
|---|---|---|---|---|---|---|
| App.tsx:216 | after a manual sync the cursor moves to the last fetched record only when the fetched list is non-empty, and otherwise keeps its old value; `Sync.App.ManualSync` keeps this behaviour | two records shown, cursor on the second (1), and the sync fetches an empty list: the list becomes empty while the cursor stays at 1, and "previous" stays enabled over an empty list | reset the cursor as the load effect does (App.tsx:104, App.tsx:128): last record, or 0 for an empty list; `Sync.App.LoadLocal` and `Sync.App.ApplyCloudFetch` use this reset | medium; not executed | Cursor.ManualSyncCursorEscapes | Cursor.ManualSyncCursorCorrected |
| App.tsx:196-213 | the count of unsent records is set to 0 after a full drain and left alone after a failed one, without reading the queue back; `Sync.App.ManualSync` keeps this behaviour | two queued records, the first sent, the second failing: the count stays 2 for a queue of 1; one queued record sent while its removal write is dropped because the store is full: the count becomes 0 for a queue of 1 | set the count from the queue after the drain, as the load effect and the save do (App.tsx:88, App.tsx:249) | medium; not executed | Sync.SyncedCountMisreports | Sync.SyncedCountCorrected |

=== FILE: cursor.dfy ===
/**
  The cursor over the record list of App.tsx. `viewIndex` ranges over
  `0..|records|`; the position `|records|` is the slot of a record not yet
  saved ("new mode"), and an empty list is its own "empty start" mode. The
  current and the previous record shown beside the form are derived from
  the list and the cursor.
 */
module Cursor {
  import opened Wrappers
  import opened Records

  /** `records.length > 0 && viewIndex >= records.length` */
  predicate IsNewMode(n: nat, viewIndex: int) {
    n > 0 && viewIndex >= n
  }

  /** `records.length === 0` */
  predicate IsEmptyStart(n: nat) {
    n == 0
  }

  /**
    `records[viewIndex]` outside the two modes, else null. A negative
    cursor reads JavaScript's `undefined`, which is null here too.
   */
  function CurrentRecord(records: seq<InspectionRecord>, viewIndex: int): (r: Option<InspectionRecord>)
    ensures r.Some? <==> 0 <= viewIndex < |records|
    ensures r.Some? ==> r.value == records[viewIndex]
  {
    if !IsEmptyStart(|records|) && !IsNewMode(|records|, viewIndex) && viewIndex >= 0
    then Some(records[viewIndex])
    else None
  }

  /**
    The record shown as "previous" beside the form: the last record in new
    mode and in empty start (where there is none), the one before the cursor
    otherwise.
   */
  function PrevRecord(records: seq<InspectionRecord>, viewIndex: int): (r: Option<InspectionRecord>)
    ensures r.Some? ==> r.value in records
    ensures r.None? <==> |records| == 0 || viewIndex <= 0 < |records|
  {
    if IsNewMode(|records|, viewIndex) || IsEmptyStart(|records|) then
      (if |records| > 0 then Some(records[|records| - 1]) else None)
    else if viewIndex > 0 then Some(records[viewIndex - 1])
    else None
  }

  /** `length > 0 ? length - 1 : 0`: the cursor after a load or a cloud merge. */
  function ResetCursor(n: nat): nat {
    if n > 0 then n - 1 else 0
  }

  /** What the cursor designates, as an independent three-way view. */
  datatype View = EmptyStart | NewSlot | Viewing(index: nat)

  function ViewOf(n: nat, viewIndex: nat): (v: View)
    requires viewIndex <= n
    ensures v.Viewing? ==> v.index < n
  {
    if n == 0 then EmptyStart
    else if viewIndex == n then NewSlot
    else Viewing(viewIndex)
  }

  /**
    Within bounds the two mode flags and the current record classify the
    cursor exactly as the view does: new mode is the slot past the end of a
    non-empty list, empty start is the empty list, and otherwise the record
    under the cursor is current.
   */
  lemma ModesMatchView(records: seq<InspectionRecord>, viewIndex: nat)
    requires viewIndex <= |records|
    ensures IsNewMode(|records|, viewIndex) <==> ViewOf(|records|, viewIndex) == NewSlot
    ensures IsEmptyStart(|records|) <==> ViewOf(|records|, viewIndex) == EmptyStart
    ensures CurrentRecord(records, viewIndex).Some? <==> ViewOf(|records|, viewIndex).Viewing?
    ensures ViewOf(|records|, viewIndex).Viewing? ==>
      CurrentRecord(records, viewIndex) == Some(records[ViewOf(|records|, viewIndex).index])
  {
  }

  /**
    The previous record always lies in the list: it is the last record when
    the form is a new one, the record just before the cursor when an existing
    record is shown, and absent exactly for the empty list and for the first
    record.
   */
  lemma PrevRecordSpec(records: seq<InspectionRecord>, viewIndex: nat)
    requires viewIndex <= |records|
    ensures ViewOf(|records|, viewIndex) == NewSlot ==> PrevRecord(records, viewIndex) == Some(records[|records| - 1])
    ensures ViewOf(|records|, viewIndex).Viewing? && viewIndex > 0 ==>
      PrevRecord(records, viewIndex) == CurrentRecord(records, viewIndex - 1)
  {
  }

  /**
    After a reset the cursor is in bounds and shows the latest (last) record
    of a non-empty list, which is what new mode offers as the previous one;
    an empty list is shown as empty start.
   */
  lemma ResetLandsOnLatest(records: seq<InspectionRecord>)
    ensures ResetCursor(|records|) <= |records|
    ensures |records| > 0 ==> CurrentRecord(records, ResetCursor(|records|)) == Some(records[|records| - 1])
    ensures |records| > 0 ==> CurrentRecord(records, ResetCursor(|records|)) == PrevRecord(records, |records|)
    ensures |records| == 0 ==> ViewOf(0, ResetCursor(0)) == EmptyStart
  {
  }

  // ---- navigation ----

  /** The "previous" button: `v => v - 1`, disabled at 0 and below. */
  function StepBack(viewIndex: int): int {
    if viewIndex > 0 then viewIndex - 1 else viewIndex
  }

  /** The "next" button: `v => v + 1`, disabled from the new-record slot on. */
  function StepForward(n: nat, viewIndex: int): int {
    if viewIndex < n then viewIndex + 1 else viewIndex
  }

  /** The "new record" button is shown outside new mode, when no load is running and locations are known. */
  predicate NewButtonShown(n: nat, viewIndex: int, loadingData: bool, locationCount: nat) {
    !IsNewMode(n, viewIndex) && !loadingData && locationCount > 0
  }

  /**
    The buttons keep the cursor within `0..n`; back then forward, and
    forward then back, return to where the cursor was whenever the first
    button was enabled; the new-record button lands on new mode (or empty
    start for an empty list).
   */
  lemma NavigationInBounds(n: nat, viewIndex: int)
    requires 0 <= viewIndex <= n
    ensures 0 <= StepBack(viewIndex) <= n && 0 <= StepForward(n, viewIndex) <= n
    ensures viewIndex > 0 ==> StepForward(n, StepBack(viewIndex)) == viewIndex
    ensures viewIndex < n ==> StepBack(StepForward(n, viewIndex)) == viewIndex
    ensures IsNewMode(n, n) || IsEmptyStart(n)
  {
  }

  // ---- the cursor after a manual sync ----

  /**
    The cursor as the manual sync leaves it: moved to the last fetched record
    when there is one, and otherwise left where it was, whatever the length
    of the list it now indexes.
   */
  function ManualSyncCursorAsWritten(oldIndex: nat, cloudLen: nat): nat {
    if cloudLen > 0 then cloudLen - 1 else oldIndex
  }

  /**
    Two records shown, the cursor on the second, and a sync that fetches
    nothing: the list becomes empty while the cursor stays at 1, beyond the
    only valid position 0, and the "previous" button (enabled while the
    cursor is above 0) stays active on an empty list.
   */
  lemma ManualSyncCursorEscapes()
    ensures var vi := ManualSyncCursorAsWritten(1, 0);
      vi > 0 && !IsNewMode(0, vi) && IsEmptyStart(0)
  {
  }

  /** Whatever the list and the cursor were, the reset keeps the cursor in range of the fetched list. */
  lemma ManualSyncCursorCorrected(oldIndex: nat, cloudLen: nat)
    ensures ResetCursor(cloudLen) <= cloudLen
    ensures cloudLen > 0 ==> ResetCursor(cloudLen) == ManualSyncCursorAsWritten(oldIndex, cloudLen)
    ensures ManualSyncCursorAsWritten(oldIndex, cloudLen) <= cloudLen <==> cloudLen > 0 || oldIndex == 0
  {
  }
}

=== FILE: date_fields.dfy ===
/**
  The date field of FormComponents.tsx: `parseDate` reads "YYYY-MM-DD"
  into a local date and `formatDate` prints one back, and `Toggle` marks
  the option equal to the current value. A date is the triple a `Date`
  is built from: full year, 0-based month, day of month.
 */
module DateFields {
  import opened Wrappers
  import opened Digits

  datatype JsDate = JsDate(year: nat, monthIndex: nat, day: nat)

  predicate IsLeap(y: nat) {
    (y % 4 == 0 && y % 100 != 0) || y % 400 == 0
  }

  function DaysInMonth(y: nat, monthIndex: nat): nat
    requires monthIndex < 12
  {
    if monthIndex == 1 then (if IsLeap(y) then 29 else 28)
    else if monthIndex == 3 || monthIndex == 5 || monthIndex == 8 || monthIndex == 10 then 30
    else 31
  }

  /** A date of the Gregorian calendar, the only dates `Date` holds without rolling over. */
  predicate ValidDate(d: JsDate) {
    d.monthIndex < 12 && 1 <= d.day <= DaysInMonth(d.year, d.monthIndex)
  }

  /** The year printed as is, month (1-based) and day padded to two digits, joined by dashes. */
  function DateText(d: JsDate): string {
    NatToString(d.year) + "-" + Pad2(d.monthIndex + 1) + "-" + Pad2(d.day)
  }

  /** `formatDate`: the empty string for no date. */
  function FormatDate(d: Option<JsDate>): (s: string)
    ensures s == "" <==> d.None?
    ensures d.Some? ==> |s| == |NatToString(d.value.year)| + 6 && s[|s| - 3] == '-'
  {
    match d
    case None => ""
    case Some(dt) => DateText(dt)
  }

  /** The formatted text is the year's digits, a dash, two digits, a dash and two digits. */
  lemma FormatDateShape(d: JsDate)
    ensures var s := FormatDate(Some(d));
      var k := |NatToString(d.year)|;
      && |s| == k + 6
      && s[..k] == NatToString(d.year) && s[k] == '-' && s[k + 3] == '-'
      && AllDigits(s[k + 1..k + 3]) && AllDigits(s[k + 4..])
  {
    var y, m, dd := NatToString(d.year), Pad2(d.monthIndex + 1), Pad2(d.day);
    var s := FormatDate(Some(d));
    assert s == y + "-" + m + "-" + dd;
    var k := |y|;
    assert s[..k] == y;
    assert s[k + 1..k + 3] == m;
    assert s[k + 4..] == dd;
  }

  // ---- `str.split('-')` ----

  /** The dash-separated parts, as `split('-')` returns them (an empty string has one empty part). */
  function Split(s: string): (parts: seq<string>)
    ensures |parts| >= 1
    ensures forall i :: 0 <= i < |parts| ==> '-' !in parts[i]
  {
    if s == [] then [""]
    else
      var rest := Split(s[1..]);
      if s[0] == '-' then [""] + rest
      else [[s[0]] + rest[0]] + rest[1..]
  }

  /** `parts.join('-')` */
  function Join(parts: seq<string>): string
    requires |parts| >= 1
  {
    if |parts| == 1 then parts[0] else parts[0] + "-" + Join(parts[1..])
  }

  /** Joining the parts gives the string back. */
  lemma {:induction false} JoinSplit(s: string)
    ensures Join(Split(s)) == s
  {
    if s != [] {
      var rest := Split(s[1..]);
      JoinSplit(s[1..]);
      if s[0] == '-' {
        assert ([""] + rest)[1..] == rest;
        assert s == [s[0]] + s[1..];
      } else {
        var parts := [[s[0]] + rest[0]] + rest[1..];
        if |rest| == 1 {
          assert s == [s[0]] + rest[0];
        } else {
          assert parts[1..] == rest[1..];
          assert s == [s[0]] + s[1..];
        }
      }
    }
  }

  /** A dash-free text is one part. */
  lemma {:induction false} SplitNoDash(a: string)
    requires '-' !in a
    ensures Split(a) == [a]
  {
    if a != [] {
      assert '-' !in a[1..] by {
        forall i | 0 <= i < |a[1..]| ensures a[1..][i] != '-' {
          assert a[1..][i] == a[i + 1];
        }
      }
      SplitNoDash(a[1..]);
      assert a == [a[0]] + a[1..];
    }
  }

  /** A dash-free text followed by a dash is the first part. */
  lemma {:induction false} SplitAfterDash(a: string, b: string)
    requires '-' !in a
    ensures Split(a + "-" + b) == [a] + Split(b)
  {
    if a == [] {
      assert a + "-" + b == ['-'] + b;
      assert (['-'] + b)[1..] == b;
    } else {
      var s := a + "-" + b;
      assert s[1..] == a[1..] + "-" + b;
      assert '-' !in a[1..] by {
        forall i | 0 <= i < |a[1..]| ensures a[1..][i] != '-' {
          assert a[1..][i] == a[i + 1];
        }
      }
      SplitAfterDash(a[1..], b);
      assert [a[0]] + a[1..] == a;
    }
  }

  lemma DigitsHaveNoDash(s: string)
    requires AllDigits(s)
    ensures '-' !in s
  {
    forall i | 0 <= i < |s| ensures s[i] != '-' {
      assert IsDigit(s[i]);
    }
  }

  // ---- `parseDate` ----

  /**
    `Number(part)` for the parts a date field holds: the value of a string
    of decimal digits (0 for the empty string), NaN (here None) otherwise.
   */
  function ToNumber(part: string): (n: Option<nat>)
    ensures n.Some? <==> AllDigits(part)
  {
    if AllDigits(part) then Some(DigitsToNat(part)) else None
  }

  /** The `i`-th element of the destructured parts, `undefined` (None) when there is none. */
  function Field(parts: seq<string>, i: nat): Option<nat> {
    if i < |parts| then ToNumber(parts[i]) else None
  }

  /** JavaScript truthiness of a number: neither `undefined`, NaN nor 0. */
  predicate Truthy(n: Option<nat>) {
    n.Some? && n.value != 0
  }

  /** The `Date` constructor reads a year from 0 to 99 as 1900 onwards. */
  function FullYear(y: nat): (r: nat)
    ensures r >= 1900 || r == y
    ensures y >= 100 ==> r == y
  {
    if y <= 99 then 1900 + y else y
  }

  /**
    `parseDate`: null for the empty string, and null unless year, month and
    day are each present, numeric and non-zero; otherwise the date for that
    year, the month less one, and that day.
   */
  function ParseDate(s: string): (r: Option<JsDate>)
    ensures s == "" ==> r.None?
    ensures r.Some? ==> r.value.year >= 100 && r.value.day >= 1
    ensures r.Some? <==> s != "" && Truthy(Field(Split(s), 0)) && Truthy(Field(Split(s), 1)) && Truthy(Field(Split(s), 2))
  {
    if s == "" then None
    else
      var parts := Split(s);
      var y := Field(parts, 0);
      var m := Field(parts, 1);
      var d := Field(parts, 2);
      if !Truthy(y) || !Truthy(m) || !Truthy(d) then None
      else Some(JsDate(FullYear(y.value), m.value - 1, d.value))
  }

  /** Three dash-free texts joined by dashes split into those three parts. */
  lemma SplitThree(a: string, b: string, c: string)
    requires '-' !in a && '-' !in b && '-' !in c
    ensures Split(a + "-" + b + "-" + c) == [a, b, c]
  {
    var t := b + "-" + c;
    assert a + "-" + b + "-" + c == a + "-" + t;
    SplitAfterDash(b, c);
    SplitNoDash(c);
    assert Split(t) == [b, c];
    SplitAfterDash(a, t);
    assert [a] + [b, c] == [a, b, c];
  }

  /** Three digit strings joined by dashes, each with a non-zero value, parse to the date they spell. */
  lemma ParseDigitParts(y: string, m: string, d: string)
    requires AllDigits(y) && AllDigits(m) && AllDigits(d)
    requires DigitsToNat(y) > 0 && DigitsToNat(m) > 0 && DigitsToNat(d) > 0
    ensures ParseDate(y + "-" + m + "-" + d) ==
      Some(JsDate(FullYear(DigitsToNat(y)), DigitsToNat(m) - 1, DigitsToNat(d)))
  {
    DigitsHaveNoDash(y);
    DigitsHaveNoDash(m);
    DigitsHaveNoDash(d);
    var s := y + "-" + m + "-" + d;
    SplitThree(y, m, d);
    var parts := Split(s);
    assert parts[0] == y && parts[1] == m && parts[2] == d;
    assert Field(parts, 0) == Some(DigitsToNat(y));
    assert Field(parts, 1) == Some(DigitsToNat(m));
    assert Field(parts, 2) == Some(DigitsToNat(d));
    assert s != "";
  }

  /** Every calendar date from year 100 on is read back as printed. */
  lemma ParseFormatRoundTrip(d: JsDate)
    requires ValidDate(d) && d.year >= 100
    ensures ParseDate(FormatDate(Some(d))) == Some(d)
  {
    var y := NatToString(d.year);
    var m := Pad2(d.monthIndex + 1);
    var dd := Pad2(d.day);
    DigitsOfNatToString(d.year);
    Pad2RoundTrip(d.monthIndex + 1);
    Pad2RoundTrip(d.day);
    ParseDigitParts(y, m, dd);
    assert FormatDate(Some(d)) == y + "-" + m + "-" + dd;
  }

  /**
    A "YYYY-MM-DD" text of a calendar date, year without a leading zero and
    of at least three digits, month and day of two, prints back unchanged.
   */
  lemma FormatParseRoundTrip(y: string, m: string, d: string)
    requires AllDigits(y) && |y| >= 3 && y[0] != '0'
    requires AllDigits(m) && |m| == 2 && AllDigits(d) && |d| == 2
    requires 1 <= DigitsToNat(m) <= 12
    requires ValidDate(JsDate(DigitsToNat(y), DigitsToNat(m) - 1, DigitsToNat(d)))
    ensures FormatDate(ParseDate(y + "-" + m + "-" + d)) == y + "-" + m + "-" + d
  {
    var date := JsDate(DigitsToNat(y), DigitsToNat(m) - 1, DigitsToNat(d));
    assert ParseDate(y + "-" + m + "-" + d) == Some(date) by {
      NatToStringOfDigits(y);
      assert DigitsToNat(y) >= 100;
      ParseDigitParts(y, m, d);
    }
    assert DateText(date) == y + "-" + m + "-" + d by {
      NatToStringOfDigits(y);
      Pad2OfDigits(m);
      Pad2OfDigits(d);
    }
  }

  // ---- `Toggle` ----

  /** The options a toggle offers when none are given. */
  const DefaultOptions: seq<string> := ["ON", "OFF"]

  /** `options = ['ON', 'OFF']` as the default of an absent argument. */
  function ToggleOptions(options: Option<seq<string>>): seq<string> {
    match options
    case None => DefaultOptions
    case Some(o) => o
  }

  /** The options drawn as active: those equal to the value, in order. */
  function ActiveOptions(value: string, options: seq<string>): (r: seq<string>)
    ensures forall o :: o in r <==> o in options && o == value
    ensures |r| <= |options|
  {
    if options == [] then []
    else
      var rest := ActiveOptions(value, options[1..]);
      assert forall o :: o in options <==> o == options[0] || o in options[1..];
      if options[0] == value then [options[0]] + rest else rest
  }

  /** With the default options, "ON" or "OFF" lights exactly that option and any other value lights none. */
  lemma DefaultToggle(value: string)
    ensures value == "ON" || value == "OFF" ==> ActiveOptions(value, ToggleOptions(None)) == [value]
    ensures value != "ON" && value != "OFF" ==> ActiveOptions(value, ToggleOptions(None)) == []
  {
    var opts := ToggleOptions(None);
    assert opts[1..] == ["OFF"] && opts[1..][1..] == [];
  }
}

=== FILE: digits.dfy ===
/**
  Decimal text of natural numbers, as JavaScript produces and reads it:
  template-literal printing of an integer (`${n}`), `Number` applied to a
  string of decimal digits, and the two-digit padding idiom
  `('0' + n).slice(-2)` used for months and days.
 */
module Digits {

  predicate IsDigit(c: char) {
    '0' <= c <= '9'
  }

  predicate AllDigits(s: string) {
    forall i :: 0 <= i < |s| ==> IsDigit(s[i])
  }

  function DigitChar(d: nat): (c: char)
    requires d < 10
    ensures IsDigit(c) && DigitValue(c) == d
  {
    (('0' as int) + d) as char
  }

  function DigitValue(c: char): (d: nat)
    requires IsDigit(c)
    ensures d < 10
  {
    (c as int) - ('0' as int)
  }

  /** `Number(s)` for a string of decimal digits; the empty string reads as 0. */
  function DigitsToNat(s: string): nat
    requires AllDigits(s)
  {
    if s == [] then 0 else 10 * DigitsToNat(s[..|s| - 1]) + DigitValue(s[|s| - 1])
  }

  /** `${n}` for a non-negative integer: no leading zero except for 0 itself. */
  function NatToString(n: nat): (s: string)
    ensures |s| >= 1 && AllDigits(s)
    ensures s[0] == '0' ==> n == 0
    ensures n < 10 <==> |s| == 1
    ensures |s| >= 3 ==> n >= 100
  {
    if n < 10 then [DigitChar(n)] else NatToString(n / 10) + [DigitChar(n % 10)]
  }

  /**
    `('0' + n).slice(-2)`: the last two characters of "0" followed by `${n}`,
    that is "0" and the digit when `${n}` has one character, and the last two
    digits of `${n}` otherwise.
   */
  function Pad2(n: nat): (s: string)
    ensures |s| == 2 && AllDigits(s)
  {
    var d := NatToString(n);
    if |d| == 1 then ['0', d[0]] else [d[|d| - 2], d[|d| - 1]]
  }

  /** Reading back what was printed gives the number again. */
  lemma {:induction false} DigitsOfNatToString(n: nat)
    ensures DigitsToNat(NatToString(n)) == n
  {
    if n >= 10 {
      var s := NatToString(n);
      assert s[..|s| - 1] == NatToString(n / 10);
      DigitsOfNatToString(n / 10);
    }
  }

  /** A digit string without a leading zero is exactly what printing its value gives. */
  lemma {:induction false} NatToStringOfDigits(s: string)
    requires AllDigits(s) && |s| >= 1 && (|s| > 1 ==> s[0] != '0')
    ensures NatToString(DigitsToNat(s)) == s
  {
    var n := DigitsToNat(s);
    if |s| == 1 {
      assert s[..0] == [] && DigitsToNat(s[..0]) == 0;
      assert n == 10 * DigitsToNat(s[..0]) + DigitValue(s[0]);
    } else {
      var p := s[..|s| - 1];
      var last := s[|s| - 1];
      assert p[0] == s[0];
      NatToStringOfDigits(p);
      var a := DigitsToNat(p);
      assert a >= 1 by {
        LeadingDigitBound(p);
      }
      var d := DigitValue(last);
      assert n == 10 * a + d;
      AppendDigit(a, d);
      assert NatToString(n) == NatToString(a) + [DigitChar(d)];
      assert DigitChar(d) == last;
      assert s == p + [last];
    }
  }

  /** Appending a digit `d` to the decimal text of `a` denotes `10 * a + d`, so division by ten undoes it. */
  lemma AppendDigit(a: nat, d: nat)
    requires d < 10
    ensures (10 * a + d) / 10 == a && (10 * a + d) % 10 == d
    ensures a >= 1 ==> 10 * a + d >= 10
  {
  }

  /** A digit string that does not start with '0' denotes a positive number. */
  lemma {:induction false} LeadingDigitBound(s: string)
    requires AllDigits(s) && |s| >= 1 && s[0] != '0'
    ensures DigitsToNat(s) >= 1
  {
    if |s| > 1 {
      var p := s[..|s| - 1];
      assert p[0] == s[0];
      LeadingDigitBound(p);
    }
  }

  /** For numbers below 100 the padding reads back as the number. */
  lemma Pad2RoundTrip(n: nat)
    requires n < 100
    ensures DigitsToNat(Pad2(n)) == n
  {
    var p := Pad2(n);
    if n < 10 {
      assert NatToString(n) == [DigitChar(n)];
      assert p == ['0', DigitChar(n)];
      assert p[..1] == ['0'] && p[..1][..0] == [];
      assert DigitsToNat(p[..1]) == 10 * DigitsToNat(p[..1][..0]) + DigitValue('0') == 0;
      assert DigitsToNat(p) == 10 * DigitsToNat(p[..1]) + DigitValue(p[1]);
    } else {
      assert NatToString(n / 10) == [DigitChar(n / 10)];
      assert p == [DigitChar(n / 10), DigitChar(n % 10)];
      assert p[..1] == [DigitChar(n / 10)] && p[..1][..0] == [];
      assert DigitsToNat(p[..1]) == n / 10;
    }
  }

  /** A two-digit string is exactly the padding of its value. */
  lemma Pad2OfDigits(s: string)
    requires |s| == 2 && AllDigits(s)
    ensures DigitsToNat(s) < 100 && Pad2(DigitsToNat(s)) == s
  {
    var n := DigitsToNat(s);
    assert s[..1] == [s[0]] && s[..1][..0] == [];
    assert DigitsToNat(s[..1]) == DigitValue(s[0]);
    assert n == 10 * DigitValue(s[0]) + DigitValue(s[1]);
    if s[0] == '0' {
      assert NatToString(n) == [DigitChar(n)];
    } else {
      NatToStringOfDigits(s);
    }
  }
}

=== FILE: merge.dfy ===
/**
  The two merges of the record-loading effect in App.tsx: stored records
  plus the location's pending records (shown at once, before any network),
  and fetched cloud records overlaid by the pending records (applied when the
  background fetch returns). Each is a method with the source's loop, proved
  equal to a specification function whose properties are lemmas here.
 */
module Merge {
  import opened Wrappers
  import opened Records

  /** `getPending().filter(r => r.sheetName === location)`, in queue order. */
  function ForLocation(q: seq<InspectionRecord>, location: string): (r: seq<InspectionRecord>)
    ensures forall x :: x in r <==> x in q && x.sheetName == Some(location)
    ensures AllIdentified(q) ==> AllIdentified(r)
  {
    if q == [] then []
    else
      var p := q[..|q| - 1];
      var x := q[|q| - 1];
      assert q == p + [x];
      assert AllIdentified(q) ==> AllIdentified(p);
      if x.sheetName == Some(location) then ForLocation(p, location) + [x] else ForLocation(p, location)
  }

  // ---- counting entries per id ----

  /** The number of entries holding `id`. */
  function CountId(s: seq<InspectionRecord>, id: string): nat {
    if s == [] then 0
    else CountId(s[..|s| - 1], id) + (if s[|s| - 1].id == id then 1 else 0)
  }

  lemma {:induction false} CountIdPositive(s: seq<InspectionRecord>, id: string)
    ensures CountId(s, id) > 0 <==> HasId(s, id)
  {
    if s != [] {
      var p := s[..|s| - 1];
      CountIdPositive(p, id);
      assert forall i :: 0 <= i < |p| ==> p[i] == s[i];
      if HasId(s, id) && s[|s| - 1].id != id {
        var i :| 0 <= i < |s| && s[i].id == id;
        assert p[i].id == id;
      }
    }
  }

  lemma {:induction false} CountIdConcat(a: seq<InspectionRecord>, b: seq<InspectionRecord>, id: string)
    ensures CountId(a + b, id) == CountId(a, id) + CountId(b, id)
  {
    if b == [] {
      assert a + b == a;
    } else {
      var p := b[..|b| - 1];
      CountIdConcat(a, p, id);
      assert (a + b)[..|a + b| - 1] == a + p;
      assert (a + b)[|a + b| - 1] == b[|b| - 1];
    }
  }

  /** An id is in a non-empty list when it is in all but the last entry or is the last entry's. */
  lemma HasIdSnoc(s: seq<InspectionRecord>, id: string)
    requires s != []
    ensures HasId(s, id) <==> HasId(s[..|s| - 1], id) || s[|s| - 1].id == id
  {
    var p := s[..|s| - 1];
    assert forall i :: 0 <= i < |p| ==> p[i] == s[i];
    if HasId(s, id) && s[|s| - 1].id != id {
      var i :| 0 <= i < |s| && s[i].id == id;
      assert p[i].id == id;
    }
  }

  /** Reordering a list does not change how many entries hold an id. */
  lemma {:induction false} CountIdPermutation(a: seq<InspectionRecord>, b: seq<InspectionRecord>, id: string)
    requires multiset(a) == multiset(b)
    ensures CountId(a, id) == CountId(b, id)
  {
    if a != [] {
      var p := a[..|a| - 1];
      var x := a[|a| - 1];
      assert a == p + [x];
      assert x in multiset(b);
      var k :| 0 <= k < |b| && b[k] == x;
      var rest := b[..k] + b[k + 1..];
      CountIdRemoveAt(b, k, id);
      assert multiset(p) == multiset(a) - multiset{x};
      CountIdPermutation(p, rest, id);
    }
  }

  /** Taking the entry at `k` out of a list takes its id's occurrence out of the count and the entry out of the multiset. */
  lemma CountIdRemoveAt(b: seq<InspectionRecord>, k: nat, id: string)
    requires k < |b|
    ensures multiset(b[..k] + b[k + 1..]) == multiset(b) - multiset{b[k]}
    ensures CountId(b, id) == CountId(b[..k] + b[k + 1..], id) + (if b[k].id == id then 1 else 0)
  {
    var x := b[k];
    assert b == b[..k] + [x] + b[k + 1..];
    assert multiset(b) == multiset(b[..k]) + multiset{x} + multiset(b[k + 1..]);
    CountIdConcat(b[..k], [x], id);
    CountIdConcat(b[..k] + [x], b[k + 1..], id);
    CountIdConcat(b[..k], b[k + 1..], id);
    assert CountId([x], id) == (if x.id == id then 1 else 0) by {
      assert [x][..0] == [];
    }
  }

  // ---- stored + pending ----

  /**
    The `forEach` of the local merge: a pending record with a truthy id is
    pushed when no entry with its id is present yet (checked against the
    growing list).
   */
  function AppendMissing(base: seq<InspectionRecord>, pending: seq<InspectionRecord>): seq<InspectionRecord> {
    if pending == [] then base
    else
      var acc := AppendMissing(base, pending[..|pending| - 1]);
      var p := pending[|pending| - 1];
      if p.id != "" && !HasId(acc, p.id) then acc + [p] else acc
  }

  function LocalMerge(local: seq<InspectionRecord>, pending: seq<InspectionRecord>): seq<InspectionRecord> {
    SortByCreated(AppendMissing(local, pending))
  }

  /** The local merge as the source runs it: copy, push the missing, sort. */
  method MergeLocal(localData: seq<InspectionRecord>, pending: seq<InspectionRecord>)
    returns (merged: seq<InspectionRecord>)
    ensures merged == LocalMerge(localData, pending)
  {
    merged := localData;
    for i := 0 to |pending|
      invariant merged == AppendMissing(localData, pending[..i])
    {
      assert pending[..i + 1][..i] == pending[..i];
      var p := pending[i];
      if p.id != "" && !HasId(merged, p.id) {
        merged := merged + [p];
      }
    }
    assert pending[..|pending|] == pending;
    merged := SortByCreated(merged);
  }

  /**
    What the push loop yields: the stored list unchanged as a prefix, then
    only pending records.
   */
  lemma {:induction false} AppendMissingKeeps(base: seq<InspectionRecord>, pending: seq<InspectionRecord>)
    ensures var r := AppendMissing(base, pending);
      && |r| >= |base| && r[..|base|] == base
      && (forall x :: x in r ==> x in base || x in pending)
  {
    if pending != [] {
      var ps := pending[..|pending| - 1];
      var p := pending[|pending| - 1];
      AppendMissingKeeps(base, ps);
      var acc := AppendMissing(base, ps);
      assert forall x :: x in ps ==> x in pending;
      if p.id != "" && !HasId(acc, p.id) {
        assert (acc + [p])[..|acc|] == acc;
        assert (acc + [p])[..|base|] == acc[..|base|];
      }
    }
  }

  /**
    An id gains exactly one entry in the push loop when it is truthy, absent
    from the stored list and present among the pending records, and keeps
    its stored count otherwise.
   */
  lemma {:induction false} AppendMissingCount(base: seq<InspectionRecord>, pending: seq<InspectionRecord>, id: string)
    ensures CountId(AppendMissing(base, pending), id)
         == CountId(base, id) + (if id != "" && !HasId(base, id) && HasId(pending, id) then 1 else 0)
  {
    if pending != [] {
      var ps := pending[..|pending| - 1];
      var p := pending[|pending| - 1];
      AppendMissingCount(base, ps, id);
      var acc := AppendMissing(base, ps);
      HasIdSnoc(pending, id);
      CountIdPositive(base, id);
      CountIdPositive(acc, id);
      if p.id != "" && !HasId(acc, p.id) {
        var grown := acc + [p];
        assert grown[..|acc|] == acc;
        assert CountId(grown, id) == CountId(acc, id) + (if p.id == id then 1 else 0);
      }
    }
  }

  /**
    The local merge is ascending by `createdAt`, keeps every stored record
    and adds only pending ones.
   */
  lemma LocalMergeKeeps(local: seq<InspectionRecord>, pending: seq<InspectionRecord>)
    ensures var r := LocalMerge(local, pending);
      && Sorted(r)
      && multiset(local) <= multiset(r)
      && (forall x :: x in r ==> x in local || x in pending)
  {
    var a := AppendMissing(local, pending);
    AppendMissingKeeps(local, pending);
    assert a == local + a[|local|..];
    assert forall x :: x in LocalMerge(local, pending) ==> x in multiset(a);
  }

  /**
    The local merge gives a truthy-id pending record missing from storage
    exactly one entry and leaves the count of every stored id as it was.
   */
  lemma LocalMergeCount(local: seq<InspectionRecord>, pending: seq<InspectionRecord>, id: string)
    ensures id != "" && !HasId(local, id) && HasId(pending, id) ==> CountId(LocalMerge(local, pending), id) == 1
    ensures HasId(local, id) ==> CountId(LocalMerge(local, pending), id) == CountId(local, id)
  {
    var a := AppendMissing(local, pending);
    AppendMissingCount(local, pending, id);
    CountIdPermutation(a, LocalMerge(local, pending), id);
    CountIdPositive(local, id);
  }

  /** With nothing pending, an already ordered stored list is shown as it is. */
  lemma LocalMergeNothingPending(local: seq<InspectionRecord>)
    requires Sorted(local)
    ensures LocalMerge(local, []) == local
  {
    SortSortedIdentity(local);
  }

  // ---- cloud + pending ----

  /** `rs.forEach(r => { if (r && r.id) map.set(r.id, r); })`: an insertion-ordered map is a list upserted by id. */
  function FillMap(m: seq<InspectionRecord>, rs: seq<InspectionRecord>): seq<InspectionRecord> {
    if rs == [] then m
    else
      var acc := FillMap(m, rs[..|rs| - 1]);
      var r := rs[|rs| - 1];
      if r.id != "" then Upsert(acc, r) else acc
  }

  /** The last entry of `rs` holding `id`: the one a sequence of `map.set` calls leaves. */
  function LastWithId(rs: seq<InspectionRecord>, id: string): (r: Option<InspectionRecord>)
    ensures r.Some? ==> r.value in rs && r.value.id == id
    ensures r.Some? <==> HasId(rs, id)
  {
    if rs == [] then None
    else if rs[|rs| - 1].id == id then Some(rs[|rs| - 1])
    else
      var p := rs[..|rs| - 1];
      assert forall i :: 0 <= i < |p| ==> p[i] == rs[i];
      assert HasId(rs, id) ==> HasId(p, id) by {
        if HasId(rs, id) {
          var i :| 0 <= i < |rs| && rs[i].id == id;
          assert i < |p|;
        }
      }
      LastWithId(p, id)
  }

  /** The record found is the last one holding the id: no later entry has that id. */
  lemma {:induction false} LastWithIdIsLast(rs: seq<InspectionRecord>, id: string)
    ensures LastWithId(rs, id).Some? ==>
      exists i :: 0 <= i < |rs| && rs[i] == LastWithId(rs, id).value && forall j :: i < j < |rs| ==> rs[j].id != id
  {
    if rs != [] && rs[|rs| - 1].id != id {
      var p := rs[..|rs| - 1];
      LastWithIdIsLast(p, id);
      if LastWithId(p, id).Some? {
        var i :| 0 <= i < |p| && p[i] == LastWithId(p, id).value && forall j :: i < j < |p| ==> p[j].id != id;
        assert rs[i] == p[i];
        assert forall j :: i < j < |rs| ==> rs[j].id != id by {
          forall j | i < j < |rs| ensures rs[j].id != id {
            if j < |p| {
              assert rs[j] == p[j];
            }
          }
        }
      }
    }
  }

  /** `Array.from(map.values())` sorted: the fetched list overlaid by the pending list. */
  function RemoteMerge(cloud: seq<InspectionRecord>, pending: seq<InspectionRecord>): seq<InspectionRecord> {
    SortByCreated(FillMap(FillMap([], cloud), pending))
  }

  /** The remote merge as the source runs it: fill the map from the cloud, then from pending, then sort. */
  method MergeRemote(cloudData: seq<InspectionRecord>, currentPending: seq<InspectionRecord>)
    returns (finalMerged: seq<InspectionRecord>)
    ensures finalMerged == RemoteMerge(cloudData, currentPending)
  {
    var m: seq<InspectionRecord> := [];
    for i := 0 to |cloudData|
      invariant m == FillMap([], cloudData[..i])
    {
      assert cloudData[..i + 1][..i] == cloudData[..i];
      var r := cloudData[i];
      if r.id != "" {
        m := Upsert(m, r);
      }
    }
    assert cloudData[..|cloudData|] == cloudData;
    ghost var fromCloud := m;
    for i := 0 to |currentPending|
      invariant m == FillMap(fromCloud, currentPending[..i])
    {
      assert currentPending[..i + 1][..i] == currentPending[..i];
      var r := currentPending[i];
      if r.id != "" {
        m := Upsert(m, r);
      }
    }
    assert currentPending[..|currentPending|] == currentPending;
    finalMerged := SortByCreated(m);
  }

  /**
    The map filled from `rs` over `m` holds, for every truthy id, the last
    record of `rs` with that id if there is one, otherwise `m`'s record; it
    never holds two entries with one id.
   */
  lemma {:induction false} FillMapSpec(m: seq<InspectionRecord>, rs: seq<InspectionRecord>)
    requires UniqueIds(m) && AllIdentified(m)
    ensures UniqueIds(FillMap(m, rs)) && AllIdentified(FillMap(m, rs))
    ensures forall x :: x in FillMap(m, rs) <==>
      x.id != "" && (LastWithId(rs, x.id) == Some(x) || (LastWithId(rs, x.id) == None && x in m))
  {
    if rs != [] {
      var p := rs[..|rs| - 1];
      var r := rs[|rs| - 1];
      FillMapSpec(m, p);
      var acc := FillMap(m, p);
      assert forall id :: LastWithId(rs, id) == if r.id == id then Some(r) else LastWithId(p, id);
      if r.id != "" {
        UpsertSpec(acc, r);
        var s := Upsert(acc, r);
        assert forall i :: 0 <= i < |s| ==> s[i] in s;
      }
    }
  }

  /**
    The remote merge: ids unique and truthy; a record is present exactly when
    it is the last pending record of its id, or its id is not pending and it
    is the last cloud record of its id (pending beats remote); every id of
    either input is present; ascending by `createdAt`.
   */
  lemma RemoteMergeSpec(cloud: seq<InspectionRecord>, pending: seq<InspectionRecord>)
    ensures var r := RemoteMerge(cloud, pending);
      && Sorted(r) && UniqueIds(r) && AllIdentified(r)
      && (forall x :: x in r <==> (x.id != "" && RemoteWinner(cloud, pending, x)))
      && (forall id :: id != "" ==> (HasId(r, id) <==> HasId(cloud, id) || HasId(pending, id)))
  {
    var f := FillMap(FillMap([], cloud), pending);
    var r := RemoteMerge(cloud, pending);
    FilledMembers(cloud, pending);
    SortKeepsUniqueIds(f);
    assert forall x :: x in r <==> x in multiset(f);
    forall i | 0 <= i < |r| ensures r[i].id != "" {
      assert r[i] in multiset(f);
    }
    forall id | id != "" ensures HasId(r, id) <==> HasId(cloud, id) || HasId(pending, id) {
      MergedIdPresent(cloud, pending, id);
    }
  }

  /** The record that the remote merge keeps for its id: the pending one if any, else the cloud one. */
  ghost predicate RemoteWinner(cloud: seq<InspectionRecord>, pending: seq<InspectionRecord>, x: InspectionRecord) {
    LastWithId(pending, x.id) == Some(x) ||
    (LastWithId(pending, x.id) == None && LastWithId(cloud, x.id) == Some(x))
  }

  lemma FilledMembers(cloud: seq<InspectionRecord>, pending: seq<InspectionRecord>)
    ensures UniqueIds(FillMap(FillMap([], cloud), pending))
    ensures forall x :: x in FillMap(FillMap([], cloud), pending) <==> (x.id != "" && RemoteWinner(cloud, pending, x))
  {
    FillMapSpec([], cloud);
    FillMapSpec(FillMap([], cloud), pending);
  }

  lemma MergedIdPresent(cloud: seq<InspectionRecord>, pending: seq<InspectionRecord>, id: string)
    requires id != ""
    ensures HasId(RemoteMerge(cloud, pending), id) <==> HasId(cloud, id) || HasId(pending, id)
  {
    var f := FillMap(FillMap([], cloud), pending);
    var r := RemoteMerge(cloud, pending);
    FilledMembers(cloud, pending);
    if HasId(r, id) {
      var i :| 0 <= i < |r| && r[i].id == id;
      assert r[i] in multiset(f);
    }
    var y: InspectionRecord;
    if HasId(pending, id) {
      y := LastWithId(pending, id).value;
    } else if HasId(cloud, id) {
      y := LastWithId(cloud, id).value;
    }
    if HasId(pending, id) || HasId(cloud, id) {
      assert y in f;
      assert y in multiset(r);
      var i :| 0 <= i < |r| && r[i] == y;
    }
  }

  /** With nothing pending, an ordered cloud list with unique truthy ids is taken as it is. */
  lemma RemoteMergeNothingPending(cloud: seq<InspectionRecord>)
    requires Sorted(cloud) && UniqueIds(cloud) && AllIdentified(cloud)
    ensures RemoteMerge(cloud, []) == cloud
  {
    FillMapOfUnique(cloud);
    SortSortedIdentity(cloud);
  }

  /** Dropping the last entry of a list with unique truthy ids keeps both, and leaves that entry's id absent. */
  lemma UniqueInitial(rs: seq<InspectionRecord>)
    requires rs != [] && UniqueIds(rs) && AllIdentified(rs)
    ensures var p := rs[..|rs| - 1];
      UniqueIds(p) && AllIdentified(p) && !HasId(p, rs[|rs| - 1].id)
  {
    var p := rs[..|rs| - 1];
    assert forall i :: 0 <= i < |p| ==> p[i] == rs[i];
  }

  /** Filling the map over one more entry with a truthy id is one more upsert. */
  lemma FillMapSnoc(p: seq<InspectionRecord>, r: InspectionRecord)
    requires r.id != ""
    ensures FillMap([], p + [r]) == Upsert(FillMap([], p), r)
  {
    assert (p + [r])[..|p|] == p;
  }

  lemma {:induction false} FillMapOfUnique(rs: seq<InspectionRecord>)
    requires UniqueIds(rs) && AllIdentified(rs)
    ensures FillMap([], rs) == rs
  {
    if rs != [] {
      var p := rs[..|rs| - 1];
      var r := rs[|rs| - 1];
      assert rs == p + [r];
      UniqueInitial(rs);
      FillMapOfUnique(p);
      FillMapSnoc(p, r);
      UpsertAbsent(p, r);
    }
  }
}

=== FILE: photos.dfy ===
/**
  The photo section of a record (PhotoSection.tsx and the photo handlers
  App.tsx passes to it): the sanitised photo list, the three-photo cap,
  removal by position, and the source an image is displayed from, with
  Google Drive sharing links rewritten to Drive's thumbnail endpoint.
 */
module Photos {
  import opened Wrappers
  import opened Records

  /** The largest number of photos a record takes. */
  const MaxPhotos: nat := 3

  /** A stored `photos` value: not an array, or an array whose entries may be null or non-objects (None). */
  datatype PhotosValue = NotAList | PhotoList(items: seq<Option<PhotoData>>)

  /** A non-array reads as no photos; null and non-object entries are dropped, the rest keep their order. */
  function SafePhotos(v: PhotosValue): (r: seq<PhotoData>)
    ensures v.NotAList? ==> r == []
    ensures v.PhotoList? ==> |r| <= |v.items| && forall p :: p in r <==> Some(p) in v.items
    decreases if v.PhotoList? then |v.items| else 0
  {
    match v
    case NotAList => []
    case PhotoList(items) =>
      if items == [] then []
      else
        var p := items[..|items| - 1];
        assert items == p + [items[|items| - 1]];
        match items[|items| - 1]
        case None => SafePhotos(PhotoList(p))
        case Some(x) => SafePhotos(PhotoList(p)) + [x]
  }

  /** One more entry adds its photo at the end when it is an object, and nothing otherwise. */
  lemma SafePhotosSnoc(xs: seq<Option<PhotoData>>, e: Option<PhotoData>)
    ensures SafePhotos(PhotoList(xs + [e])) == SafePhotos(PhotoList(xs)) + (if e.Some? then [e.value] else [])
  {
    assert (xs + [e])[..|xs|] == xs;
  }

  /** The filter keeps order and repeats: a concatenated list is sanitised part by part. */
  lemma {:induction false} SafePhotosConcat(a: seq<Option<PhotoData>>, b: seq<Option<PhotoData>>)
    ensures SafePhotos(PhotoList(a + b)) == SafePhotos(PhotoList(a)) + SafePhotos(PhotoList(b))
  {
    if b == [] {
      assert a + b == a;
    } else {
      var p := b[..|b| - 1];
      var e := b[|b| - 1];
      var tail := if e.Some? then [e.value] else [];
      assert b == p + [e];
      assert a + b == (a + p) + [e];
      calc {
        SafePhotos(PhotoList(a + b));
        { SafePhotosSnoc(a + p, e); }
        SafePhotos(PhotoList(a + p)) + tail;
        { SafePhotosConcat(a, p); }
        SafePhotos(PhotoList(a)) + SafePhotos(PhotoList(p)) + tail;
        { SafePhotosSnoc(p, e); }
        SafePhotos(PhotoList(a)) + SafePhotos(PhotoList(b));
      }
    }
  }

  /** A single entry is kept exactly when it is an object. */
  lemma SafePhotosSingle(e: Option<PhotoData>)
    ensures SafePhotos(PhotoList([e])) == if e.Some? then [e.value] else []
  {
    assert [e][..0] == [];
  }

  /** The upload control is shown while fewer than three photos are attached. */
  predicate UploadOffered(photos: seq<PhotoData>) {
    |photos| < MaxPhotos
  }

  /** A chosen file is refused at three or more photos and appended otherwise. */
  function AddPhoto(photos: seq<PhotoData>, photo: PhotoData): (r: seq<PhotoData>)
    ensures |r| >= |photos| && r[..|photos|] == photos
    ensures r == photos <==> !UploadOffered(photos)
    ensures r != photos ==> r[|photos|..] == [photo]
  {
    if |photos| >= MaxPhotos then photos else photos + [photo]
  }

  /** `photos.filter((_, i) => i !== index)` */
  function RemoveAt(photos: seq<PhotoData>, index: int): (r: seq<PhotoData>)
    ensures 0 <= index < |photos| ==> r == photos[..index] + photos[index + 1..]
    ensures !(0 <= index < |photos|) ==> r == photos
  {
    if photos == [] then []
    else
      var p := photos[..|photos| - 1];
      var rest := RemoveAt(p, index);
      if index == |photos| - 1 then rest
      else
        assert photos == p + [photos[|photos| - 1]];
        rest + [photos[|photos| - 1]]
  }

  /** Adding files one after another, each through the cap. */
  function AddAll(photos: seq<PhotoData>, chosen: seq<PhotoData>): seq<PhotoData>
    decreases |chosen|
  {
    if chosen == [] then photos else AddAll(AddPhoto(photos, chosen[0]), chosen[1..])
  }

  /** However many files are chosen, a record ends with at most three photos, filled up to three where possible. */
  lemma {:induction false} CapHolds(photos: seq<PhotoData>, chosen: seq<PhotoData>)
    requires |photos| <= MaxPhotos
    ensures |AddAll(photos, chosen)| == if |photos| + |chosen| <= MaxPhotos then |photos| + |chosen| else MaxPhotos
    ensures AddAll(photos, chosen)[..|photos|] == photos
    decreases |chosen|
  {
    if chosen != [] {
      var next := AddPhoto(photos, chosen[0]);
      CapHolds(next, chosen[1..]);
      assert AddAll(photos, chosen)[..|next|][..|photos|] == photos;
    }
  }

  /** Removing the photo just added restores the list. */
  lemma RemoveUndoesAdd(photos: seq<PhotoData>, photo: PhotoData)
    requires UploadOffered(photos)
    ensures RemoveAt(AddPhoto(photos, photo), |photos|) == photos
  {
    assert (photos + [photo])[..|photos|] == photos;
  }

  // ---- the display source ----

  /** `String(p.url || p.data || '')` */
  function DisplaySource(p: PhotoData): (s: string)
    ensures s == "" <==> p.url == "" && p.data == ""
    ensures s == p.url || s == p.data
    ensures p.url != "" ==> s == p.url
  {
    if p.url != "" then p.url else if p.data != "" then p.data else ""
  }

  predicate StartsWith(s: string, prefix: string) {
    |prefix| <= |s| && s[..|prefix|] == prefix
  }

  /** `s.includes(t)` */
  predicate Contains(s: string, t: string)
    decreases |s|
  {
    StartsWith(s, t) || (s != [] && Contains(s[1..], t))
  }

  /** A Drive link: starts with "http" and mentions "drive.google.com". */
  predicate IsDriveLink(src: string) {
    StartsWith(src, "http") && Contains(src, "drive.google.com")
  }

  /** `[a-zA-Z0-9_-]` */
  predicate IsIdChar(c: char) {
    ('a' <= c <= 'z') || ('A' <= c <= 'Z') || ('0' <= c <= '9') || c == '_' || c == '-'
  }

  /** The longest run of id characters at the start of `s` (what a greedy `+` takes). */
  function IdRun(s: string): (r: string)
    ensures |r| <= |s| && r == s[..|r|]
    ensures forall i :: 0 <= i < |r| ==> IsIdChar(r[i])
    ensures |r| < |s| ==> !IsIdChar(s[|r|])
  {
    if s == [] || !IsIdChar(s[0]) then []
    else
      var rest := IdRun(s[1..]);
      assert s[1..][..|rest|] == s[1..|rest| + 1];
      [s[0]] + rest
  }

  /** The pattern `marker([a-zA-Z0-9_-]+)` matches at `i`: the marker, then at least one id character. */
  predicate MatchesAt(s: string, marker: string, i: nat) {
    i + |marker| < |s| && s[i..i + |marker|] == marker && IsIdChar(s[i + |marker|])
  }

  /** The leftmost position from `from` on where the pattern matches. */
  function FindMatch(s: string, marker: string, from: nat): (r: Option<nat>)
    ensures r.Some? ==> from <= r.value && MatchesAt(s, marker, r.value)
    ensures r.Some? ==> forall j :: from <= j < r.value ==> !MatchesAt(s, marker, j)
    ensures r.None? ==> forall j :: from <= j ==> !MatchesAt(s, marker, j)
    decreases |s| - from
  {
    if from + |marker| >= |s| then None
    else if MatchesAt(s, marker, from) then Some(from)
    else FindMatch(s, marker, from + 1)
  }

  /** `s.match(/marker([a-zA-Z0-9_-]+)/)?.[1]`: the captured id of the leftmost match. */
  function Capture(s: string, marker: string): (r: Option<string>)
    ensures r.Some? ==> r.value != "" && forall i :: 0 <= i < |r.value| ==> IsIdChar(r.value[i])
    ensures r.None? <==> FindMatch(s, marker, 0).None?
  {
    match FindMatch(s, marker, 0)
    case None => None
    case Some(i) => Some(IdRun(s[i + |marker|..]))
  }

  /** The Drive file id: from a "/d/" match if there is one, else from an "id=" match, else "". */
  function DriveId(src: string): (id: string)
    ensures Capture(src, "/d/").Some? ==> id == Capture(src, "/d/").value
    ensures Capture(src, "/d/").None? && Capture(src, "id=").Some? ==> id == Capture(src, "id=").value
    ensures id == "" <==> Capture(src, "/d/").None? && Capture(src, "id=").None?
  {
    match Capture(src, "/d/")
    case Some(id) => id
    case None =>
      match Capture(src, "id=")
      case Some(id) => id
      case None => ""
  }

  function ThumbnailUrl(id: string): string {
    "https://drive.google.com/thumbnail?id=" + id + "&sz=w800"
  }

  /** The source the image is drawn from: a Drive link with a file id becomes its thumbnail link. */
  function DisplayUrl(src: string): string {
    if IsDriveLink(src) && DriveId(src) != "" then ThumbnailUrl(DriveId(src)) else src
  }

  /** Only Drive links are rewritten, and a Drive link with neither pattern is left as it is. */
  lemma DisplayUrlUnchanged(src: string)
    ensures !IsDriveLink(src) ==> DisplayUrl(src) == src
    ensures (forall j :: !MatchesAt(src, "/d/", j) && !MatchesAt(src, "id=", j)) ==> DisplayUrl(src) == src
  {
    if forall j :: !MatchesAt(src, "/d/", j) && !MatchesAt(src, "id=", j) {
      assert Capture(src, "/d/").None? && Capture(src, "id=").None?;
    }
  }

  /**
    A Drive link with a "/d/" match becomes the thumbnail link of the id
    after the leftmost such match: the whole run of id characters after it.
   */
  lemma DisplayUrlFromPath(src: string)
    requires IsDriveLink(src) && FindMatch(src, "/d/", 0).Some?
    ensures FindMatch(src, "/d/", 0).value + 3 <= |src|
    ensures DisplayUrl(src) == ThumbnailUrl(IdRun(src[FindMatch(src, "/d/", 0).value + 3..]))
  {
    var i := FindMatch(src, "/d/", 0).value + 3;
    assert DriveId(src) == IdRun(src[i..]);
    assert src[i..][0] == src[i];
  }

  /**
    A Drive link without a "/d/" match but with an "id=" match becomes the
    thumbnail link of the run of id characters after the leftmost "id=".
   */
  lemma DisplayUrlFromQuery(src: string)
    requires IsDriveLink(src) && FindMatch(src, "/d/", 0).None? && FindMatch(src, "id=", 0).Some?
    ensures FindMatch(src, "id=", 0).value + 3 <= |src|
    ensures DisplayUrl(src) == ThumbnailUrl(IdRun(src[FindMatch(src, "id=", 0).value + 3..]))
  {
    var i := FindMatch(src, "id=", 0).value + 3;
    assert DriveId(src) == IdRun(src[i..]);
    assert src[i..][0] == src[i];
  }

  /** The source shown for a photo. */
  function PhotoSource(p: PhotoData): string {
    DisplayUrl(DisplaySource(p))
  }
}

=== FILE: records.dfy ===
/**
  The inspection record of types.ts, the defaults of constants.ts, the
  ascending `createdAt` order every read and merge sorts by, and the id
  helpers the store and the merges key on.
 */
module Records {
  import opened Wrappers

  /** One attached photo; an absent optional text field is the empty string. */
  datatype PhotoData = PhotoData(
    data: string,   // embedded encoded image
    url: string,    // remote reference
    lat: string,
    lon: string,
    alt: string,
    date: string)

  /**
    One inspection event. Measurements stay text, the equipment switches are
    "ON"/"OFF" and the facility state is "良"/"不可", as in the source.
    `createdAt` is optional because stored and fetched objects may lack it.
   */
  datatype InspectionRecord = InspectionRecord(
    id: string,
    sheetName: Option<string>,
    inspectionDate: string,
    createdAt: Option<int>,
    pressureMpa: string,
    waterTemp: string,
    chlorineBefore: string,
    chlorineAfter: string,
    chlorineMeasured: string,
    conductivity: string,
    turbidity: string,
    color: string,
    fanStatus: string,
    tapeHeaterStatus: string,
    panelHeaterStatus: string,
    roadHeaterStatus: string,
    facilityStatus: string,
    power100V: string,
    photos: seq<PhotoData>,
    remarks: string)

  /**
    INITIAL_RECORD_STATE: every measurement empty, every switch "OFF", the
    facility "良", no photos, no remarks. The identifying fields are the blanks
    the form starts from before a record is synthesised.
   */
  const InitialRecordState: InspectionRecord :=
    InspectionRecord(
      "", None, "", None,
      "", "", "", "", "", "", "", "",
      "OFF", "OFF", "OFF", "OFF",
      "良", "", [], "")

  /** The sort key `(r.createdAt || 0)`: a missing timestamp counts as 0. */
  function Key(r: InspectionRecord): int {
    match r.createdAt
    case None => 0
    case Some(t) => t
  }

  ghost predicate Sorted(s: seq<InspectionRecord>) {
    forall i, j :: 0 <= i < j < |s| ==> Key(s[i]) <= Key(s[j])
  }

  /**
    Places `x` after every element whose key is not greater than its own,
    so that equal keys keep their order (a stable insertion).
   */
  function InsertByCreated(s: seq<InspectionRecord>, x: InspectionRecord): (r: seq<InspectionRecord>)
    ensures multiset(r) == multiset(s) + multiset{x}
  {
    if s == [] then [x]
    else if Key(s[|s| - 1]) <= Key(x) then s + [x]
    else
      var p := s[..|s| - 1];
      assert s == p + [s[|s| - 1]];
      InsertByCreated(p, x) + [s[|s| - 1]]
  }

  lemma {:induction false} InsertKeepsSorted(s: seq<InspectionRecord>, x: InspectionRecord)
    requires Sorted(s)
    ensures Sorted(InsertByCreated(s, x))
  {
    if s != [] && Key(s[|s| - 1]) > Key(x) {
      var p := s[..|s| - 1];
      var last := s[|s| - 1];
      InsertKeepsSorted(p, x);
      var q := InsertByCreated(p, x);
      assert forall y :: y in p ==> Key(y) <= Key(last) by {
        forall y | y in p ensures Key(y) <= Key(last) {
          var i :| 0 <= i < |p| && p[i] == y;
          assert s[i] == y;
        }
      }
      InsertBounded(p, x, Key(last));
      assert InsertByCreated(s, x) == q + [last];
      SortedSnoc(q, last);
    }
  }

  /** Inserting only moves elements, so a bound on every key still holds afterwards. */
  lemma InsertBounded(p: seq<InspectionRecord>, x: InspectionRecord, bound: int)
    requires forall y :: y in p ==> Key(y) <= bound
    requires Key(x) <= bound
    ensures forall y :: y in InsertByCreated(p, x) ==> Key(y) <= bound
  {
    forall y | y in InsertByCreated(p, x) ensures Key(y) <= bound {
      assert y in multiset(p) + multiset{x};
    }
  }

  /** An ordered list stays ordered when an element no smaller than all of it is appended. */
  lemma SortedSnoc(q: seq<InspectionRecord>, last: InspectionRecord)
    requires Sorted(q)
    requires forall y :: y in q ==> Key(y) <= Key(last)
    ensures Sorted(q + [last])
  {
    forall i, j | 0 <= i < j < |q| + 1
      ensures Key((q + [last])[i]) <= Key((q + [last])[j])
    {
      if j == |q| {
        assert q[i] in q;
      }
    }
  }

  /**
    `Array.prototype.sort` with the comparator `(a, b) => key(a) - key(b)`:
    a stable sort, ascending by `createdAt`.
   */
  function SortByCreated(s: seq<InspectionRecord>): (r: seq<InspectionRecord>)
    ensures Sorted(r)
    ensures multiset(r) == multiset(s)
  {
    if s == [] then []
    else
      var p := s[..|s| - 1];
      assert s == p + [s[|s| - 1]];
      InsertKeepsSorted(SortByCreated(p), s[|s| - 1]);
      InsertByCreated(SortByCreated(p), s[|s| - 1])
  }

  /** Sorting a list that is already in order leaves it as it is. */
  lemma {:induction false} SortSortedIdentity(s: seq<InspectionRecord>)
    requires Sorted(s)
    ensures SortByCreated(s) == s
  {
    if s != [] {
      var p := s[..|s| - 1];
      SortedLast(s);
      SortSortedIdentity(p);
    }
  }

  /** An ordered list without its last element is ordered, and inserting that element puts it back last. */
  lemma SortedLast(s: seq<InspectionRecord>)
    requires Sorted(s) && s != []
    ensures Sorted(s[..|s| - 1])
    ensures InsertByCreated(s[..|s| - 1], s[|s| - 1]) == s
  {
    var p := s[..|s| - 1];
    var x := s[|s| - 1];
    assert s == p + [x];
    if p != [] {
      assert Key(p[|p| - 1]) <= Key(x);
    }
  }

  /** The entries of `s` whose sort key is `k`, in their order in `s`. */
  function WithKey(s: seq<InspectionRecord>, k: int): (r: seq<InspectionRecord>)
    ensures forall x :: x in r <==> x in s && Key(x) == k
  {
    if s == [] then []
    else
      var p := s[..|s| - 1];
      var x := s[|s| - 1];
      assert s == p + [x];
      if Key(x) == k then WithKey(p, k) + [x] else WithKey(p, k)
  }

  lemma {:induction false} WithKeyConcat(a: seq<InspectionRecord>, b: seq<InspectionRecord>, k: int)
    ensures WithKey(a + b, k) == WithKey(a, k) + WithKey(b, k)
  {
    if b == [] {
      assert a + b == a;
    } else {
      var p := b[..|b| - 1];
      var x := b[|b| - 1];
      WithKeyConcat(a, p, k);
      assert (a + b)[..|a + b| - 1] == a + p;
      assert (a + b)[|a + b| - 1] == x;
      assert WithKey(a + b, k) == if Key(x) == k then WithKey(a + p, k) + [x] else WithKey(a + p, k);
      assert WithKey(b, k) == if Key(x) == k then WithKey(p, k) + [x] else WithKey(p, k);
    }
  }

  /** Two records with different keys cannot both have key `k`, so their order does not matter to `WithKey`. */
  lemma WithKeySwap(w: seq<InspectionRecord>, x: InspectionRecord, y: InspectionRecord, k: int)
    requires Key(x) != Key(y)
    ensures w + WithKey([x], k) + WithKey([y], k) == w + WithKey([y], k) + WithKey([x], k)
  {
    assert [x][..0] == [] && [y][..0] == [];
    if Key(x) == k {
      assert WithKey([y], k) == [];
    } else {
      assert WithKey([x], k) == [];
    }
  }

  /** The insertion step puts `x` after every element that has its key. */
  lemma {:induction false} InsertIsStable(s: seq<InspectionRecord>, x: InspectionRecord, k: int)
    ensures WithKey(InsertByCreated(s, x), k) == WithKey(s + [x], k)
  {
    if s != [] && Key(s[|s| - 1]) > Key(x) {
      var p := s[..|s| - 1];
      var last := s[|s| - 1];
      var q := InsertByCreated(p, x);
      assert s == p + [last];
      assert InsertByCreated(s, x) == q + [last];
      InsertIsStable(p, x, k);
      WithKeyConcat(q, [last], k);
      WithKeyConcat(p, [x], k);
      WithKeySwap(WithKey(p, k), x, last, k);
      WithKeyConcat(p, [last], k);
      WithKeyConcat(s, [x], k);
    }
  }

  /**
    The sort is stable: for every key, the records with that key come out
    in the order they went in.
   */
  lemma {:induction false} SortIsStable(s: seq<InspectionRecord>, k: int)
    ensures WithKey(SortByCreated(s), k) == WithKey(s, k)
  {
    if s != [] {
      var p := s[..|s| - 1];
      var x := s[|s| - 1];
      assert s == p + [x];
      SortIsStable(p, k);
      InsertIsStable(SortByCreated(p), x, k);
      WithKeyConcat(SortByCreated(p), [x], k);
      WithKeyConcat(p, [x], k);
    }
  }

  // ---- ids ----

  predicate HasId(s: seq<InspectionRecord>, id: string) {
    exists i :: 0 <= i < |s| && s[i].id == id
  }

  /** No two entries share an id. */
  ghost predicate UniqueIds(s: seq<InspectionRecord>) {
    forall i, j :: 0 <= i < j < |s| ==> s[i].id != s[j].id
  }

  /** Every entry has a truthy (non-empty) id. */
  ghost predicate AllIdentified(s: seq<InspectionRecord>) {
    forall i :: 0 <= i < |s| ==> s[i].id != ""
  }

  /** `findIndex(r => r.id === id)`: the first position holding `id`, or -1. */
  function IndexOfId(s: seq<InspectionRecord>, id: string): (k: int)
    ensures -1 <= k < |s|
    ensures k >= 0 ==> s[k].id == id && forall j :: 0 <= j < k ==> s[j].id != id
    ensures k == -1 <==> !HasId(s, id)
  {
    if s == [] then -1
    else if s[0].id == id then 0
    else
      var k := IndexOfId(s[1..], id);
      assert forall j :: 1 <= j < |s| ==> s[j] == s[1..][j - 1];
      if k < 0 then -1 else k + 1
  }

  /** Appending an entry whose id is new keeps the ids unique. */
  lemma UniqueAppend(s: seq<InspectionRecord>, x: InspectionRecord)
    requires UniqueIds(s) && !HasId(s, x.id)
    ensures UniqueIds(s + [x])
  {
    forall i, j | 0 <= i < j < |s| + 1
      ensures (s + [x])[i].id != (s + [x])[j].id
    {
      if j == |s| {
        assert s[i].id != x.id;
      }
    }
  }

  /** Sorting keeps the ids unique (it only reorders). */
  lemma {:induction false} SortKeepsUniqueIds(s: seq<InspectionRecord>)
    requires UniqueIds(s)
    ensures UniqueIds(SortByCreated(s))
  {
    if s != [] {
      var p := s[..|s| - 1];
      var x := s[|s| - 1];
      assert UniqueIds(p);
      SortKeepsUniqueIds(p);
      forall y | y in SortByCreated(p) ensures y.id != x.id {
        assert y in multiset(p);
        var i :| 0 <= i < |p| && p[i] == y;
        assert s[i] == y;
      }
      InsertKeepsUniqueIds(SortByCreated(p), x);
    }
  }

  lemma {:induction false} InsertKeepsUniqueIds(s: seq<InspectionRecord>, x: InspectionRecord)
    requires UniqueIds(s)
    requires forall y :: y in s ==> y.id != x.id
    ensures UniqueIds(InsertByCreated(s, x))
  {
    if s == [] {
    } else if Key(s[|s| - 1]) <= Key(x) {
      UniqueAppend(s, x);
    } else {
      var p := s[..|s| - 1];
      var last := s[|s| - 1];
      assert UniqueIds(p);
      InsertKeepsUniqueIds(p, x);
      var q := InsertByCreated(p, x);
      forall y | y in q ensures y.id != last.id {
        assert y in multiset(p) + multiset{x};
        if y != x {
          var i :| 0 <= i < |p| && p[i] == y;
          assert s[i] == y;
        }
      }
      UniqueAppend(q, last);
    }
  }

  /** Every entry with a non-empty id, in the same order. */
  function KeepIdentified(s: seq<InspectionRecord>): (r: seq<InspectionRecord>)
    ensures AllIdentified(r)
    ensures forall x :: x in r <==> x in s && x.id != ""
    ensures AllIdentified(s) ==> r == s
  {
    if s == [] then []
    else
      var p := s[..|s| - 1];
      var x := s[|s| - 1];
      assert s == p + [x];
      if x.id != "" then KeepIdentified(p) + [x] else KeepIdentified(p)
  }

  /**
    The filter keeps order and multiplicity: a concatenation is filtered
    part by part, and (by the filter's definition) a single entry survives
    exactly when its id is truthy.
   */
  lemma {:induction false} KeepIdentifiedConcat(a: seq<InspectionRecord>, b: seq<InspectionRecord>)
    ensures KeepIdentified(a + b) == KeepIdentified(a) + KeepIdentified(b)
  {
    if b == [] {
      assert a + b == a;
    } else {
      var p := b[..|b| - 1];
      var x := b[|b| - 1];
      KeepIdentifiedConcat(a, p);
      assert (a + b)[..|a + b| - 1] == a + p;
      assert (a + b)[|a + b| - 1] == x;
      assert KeepIdentified(a + b) == if x.id != "" then KeepIdentified(a + p) + [x] else KeepIdentified(a + p);
      assert KeepIdentified(b) == if x.id != "" then KeepIdentified(p) + [x] else KeepIdentified(p);
    }
  }

  /**
    Replace the first entry holding the record's id, or append the record
    when none does: `handleSave`'s `findIndex` then assign or `push`, and
    equally `map.set` on a map kept in insertion order.
   */
  function Upsert(s: seq<InspectionRecord>, x: InspectionRecord): (r: seq<InspectionRecord>)
    ensures x in r
    ensures HasId(s, x.id) ==>
      (|r| == |s| && r[IndexOfId(s, x.id)] == x
       && forall j :: 0 <= j < |s| && j != IndexOfId(s, x.id) ==> r[j] == s[j])
    ensures !HasId(s, x.id) ==> |r| == |s| + 1 && r[..|s|] == s && r[|s|] == x
  {
    var k := IndexOfId(s, x.id);
    if k >= 0 then
      assert s[k := x][k] == x;
      s[k := x]
    else
      assert (s + [x])[|s|] == x;
      s + [x]
  }

  /** A record whose id is absent is appended. */
  lemma UpsertAbsent(s: seq<InspectionRecord>, x: InspectionRecord)
    requires !HasId(s, x.id)
    ensures Upsert(s, x) == s + [x]
  {
  }

  /** Upserting the same record twice is upserting it once. */
  lemma UpsertIdempotent(s: seq<InspectionRecord>, x: InspectionRecord)
    ensures Upsert(Upsert(s, x), x) == Upsert(s, x)
  {
    var r := Upsert(s, x);
    var k := IndexOfId(s, x.id);
    if k < 0 {
      assert r[|s|] == x;
      assert IndexOfId(r, x.id) == |s|;
    } else {
      assert IndexOfId(r, x.id) == k;
    }
  }

  /** Over unique ids an upsert keeps them unique; afterwards the id holds the new record and nothing else moved. */
  lemma UpsertSpec(m: seq<InspectionRecord>, r: InspectionRecord)
    requires UniqueIds(m)
    ensures UniqueIds(Upsert(m, r))
    ensures forall x :: x in Upsert(m, r) <==> x == r || (x in m && x.id != r.id)
  {
    var k := IndexOfId(m, r.id);
    var s := Upsert(m, r);
    if k >= 0 {
      forall x ensures x in s <==> x == r || (x in m && x.id != r.id) {
        if x in s {
          var j :| 0 <= j < |s| && s[j] == x;
          if j != k {
            assert m[j] == x && m[j].id != m[k].id;
          }
        }
        if x in m && x.id != r.id {
          var j :| 0 <= j < |m| && m[j] == x;
          assert j != k && s[j] == x;
        }
      }
    } else {
      UniqueAppend(m, r);
    }
  }
}

=== FILE: storage.dfy ===
/**
  The durable local store of services/storageService.ts: one serialized
  record list per location, one global pending queue and one cached list of
  location names. A slot holds what the browser's key-value storage would
  parse to; reads are defensive and never fail, writes may fail and then
  leave the slot as it was.
 */
module Storage {
  import opened Wrappers
  import opened Records

  /** One element of a parsed JSON array, as far as the filters look at it. */
  datatype Entry = NullEntry | ScalarEntry | ObjectEntry(record: InspectionRecord)

  /**
    A storage slot: absent (or the empty string), text that does not parse,
    parsed JSON that is not an array, or a parsed array.
   */
  datatype Stored<T> = Missing | Unparsable | NonArray | ArrayOf(items: seq<T>)

  /** `safeParse(data, [])`: absent or unparsable text degrades to the empty array. */
  function SafeParse<T>(v: Stored<T>): (r: Stored<T>)
    ensures r.NonArray? || r.ArrayOf?
    ensures v.Missing? || v.Unparsable? ==> r.ArrayOf? && |r.items| == 0
    ensures v.ArrayOf? ==> r.ArrayOf? && r.items == v.items
    ensures v.NonArray? ==> r == v
  {
    match v
    case Missing => ArrayOf([])
    case Unparsable => ArrayOf([])
    case _ => v
  }

  /** The filter `r && typeof r === 'object' && r.id`, in array order. */
  function ValidRecords(items: seq<Entry>): (r: seq<InspectionRecord>)
    ensures AllIdentified(r)
    ensures forall x :: x in r <==> ObjectEntry(x) in items && x.id != ""
    ensures |r| <= |items|
  {
    if items == [] then []
    else
      var p := items[..|items| - 1];
      var e := items[|items| - 1];
      assert items == p + [e];
      if e.ObjectEntry? && e.record.id != "" then ValidRecords(p) + [e.record] else ValidRecords(p)
  }

  /** `JSON.stringify` of a record array, as it will parse back. */
  function Stringify(rs: seq<InspectionRecord>): (r: seq<Entry>)
    ensures |r| == |rs| && forall i :: 0 <= i < |rs| ==> r[i] == ObjectEntry(rs[i])
  {
    seq(|rs|, i requires 0 <= i < |rs| => ObjectEntry(rs[i]))
  }

  /** `getRecords`: the valid entries of a record slot, ascending by `createdAt`. */
  function ReadRecords(v: Stored<Entry>): (r: seq<InspectionRecord>)
    ensures Sorted(r) && AllIdentified(r)
    ensures !v.ArrayOf? ==> r == []
    ensures v.ArrayOf? ==> multiset(r) == multiset(ValidRecords(v.items))
  {
    var parsed := SafeParse(v);
    if parsed.ArrayOf? then
      var valid := ValidRecords(parsed.items);
      var r := SortByCreated(valid);
      assert forall i :: 0 <= i < |r| ==> r[i] in multiset(valid);
      r
    else []
  }

  /** `getPending`: the valid entries of the queue slot, in stored order (no sort). */
  function ReadPending(v: Stored<Entry>): (r: seq<InspectionRecord>)
    ensures AllIdentified(r)
    ensures !v.ArrayOf? ==> r == []
  {
    match SafeParse(v)
    case ArrayOf(items) => ValidRecords(items)
    case _ => []
  }

  /** The validity filter works entry by entry: a concatenation is filtered part by part. */
  lemma {:induction false} ValidRecordsConcat(a: seq<Entry>, b: seq<Entry>)
    ensures ValidRecords(a + b) == ValidRecords(a) + ValidRecords(b)
  {
    if b == [] {
      assert a + b == a;
    } else {
      var p := b[..|b| - 1];
      var e := b[|b| - 1];
      ValidRecordsConcat(a, p);
      assert (a + b)[..|a + b| - 1] == a + p;
      assert (a + b)[|a + b| - 1] == e;
      assert ValidRecords(a + b) == if e.ObjectEntry? && e.record.id != "" then ValidRecords(a + p) + [e.record] else ValidRecords(a + p);
      assert ValidRecords(b) == if e.ObjectEntry? && e.record.id != "" then ValidRecords(p) + [e.record] else ValidRecords(p);
    }
  }

  /**
    The queue read keeps stored order and multiplicity: reading two stored
    runs one after the other reads each run in turn, and a single entry
    reads as its record exactly when it is an object with a truthy id.
   */
  lemma ReadPendingInOrder(a: seq<Entry>, b: seq<Entry>, e: Entry)
    ensures ReadPending(ArrayOf(a + b)) == ReadPending(ArrayOf(a)) + ReadPending(ArrayOf(b))
    ensures ReadPending(ArrayOf([e])) == if e.ObjectEntry? && e.record.id != "" then [e.record] else []
  {
    assert ReadPending(ArrayOf(a + b)) == ValidRecords(a + b);
    assert ReadPending(ArrayOf(a)) == ValidRecords(a);
    assert ReadPending(ArrayOf(b)) == ValidRecords(b);
    ValidRecordsConcat(a, b);
    assert ReadPending(ArrayOf([e])) == ValidRecords([e]);
    assert [e][..0] == [];
    assert ValidRecords([e]) == if e.ObjectEntry? && e.record.id != "" then ValidRecords([]) + [e.record] else ValidRecords([]);
  }

  /** The queue read is the record read without its sort: sorting it gives what `getRecords` reads. */
  lemma ReadPendingUnsorted(v: Stored<Entry>)
    requires v.ArrayOf?
    ensures SortByCreated(ReadPending(v)) == ReadRecords(v)
  {
    assert ReadPending(v) == ValidRecords(v.items);
  }

  /** `getLocations`: the parsed array, or empty when the slot holds anything else. */
  function ReadLocations(v: Stored<string>): (r: seq<string>)
    ensures v.ArrayOf? ==> r == v.items
    ensures !v.ArrayOf? ==> r == []
  {
    match SafeParse(v)
    case ArrayOf(xs) => xs
    case _ => []
  }

  /** `filter(x => x.id !== id)` on the queue. */
  function RemoveId(q: seq<InspectionRecord>, id: string): (r: seq<InspectionRecord>)
    ensures forall x :: x in r <==> x in q && x.id != id
    ensures |r| <= |q|
  {
    if q == [] then []
    else
      var p := q[..|q| - 1];
      var x := q[|q| - 1];
      assert q == p + [x];
      if x.id != id then RemoveId(p, id) + [x] else RemoveId(p, id)
  }

  /** Filtering a concatenation filters each part. */
  lemma {:induction false} RemoveIdConcat(a: seq<InspectionRecord>, b: seq<InspectionRecord>, id: string)
    ensures RemoveId(a + b, id) == RemoveId(a, id) + RemoveId(b, id)
  {
    if b == [] {
      assert a + b == a;
    } else {
      var p := b[..|b| - 1];
      RemoveIdConcat(a, p, id);
      assert (a + b)[..|a + b| - 1] == a + p;
      assert (a + b)[|a + b| - 1] == b[|b| - 1];
    }
  }

  /** In a queue with one entry per id, removing the first entry's id removes just that entry. */
  lemma RemoveHead(q: seq<InspectionRecord>)
    requires UniqueIds(q) && q != []
    ensures RemoveId(q, q[0].id) == q[1..]
  {
    assert q == [q[0]] + q[1..];
    RemoveIdConcat([q[0]], q[1..], q[0].id);
    assert [q[0]][..0] == [];
    assert !HasId(q[1..], q[0].id) by {
      forall i | 0 <= i < |q[1..]| ensures q[1..][i].id != q[0].id {
        assert q[1..][i] == q[i + 1];
      }
    }
    RemoveIdAbsent(q[1..], q[0].id);
  }

  /** The queue `addPending` writes: older copies of the id dropped, the record appended with its location. */
  function Enqueue(q: seq<InspectionRecord>, record: InspectionRecord, location: string): seq<InspectionRecord> {
    RemoveId(q, record.id) + [record.(sheetName := Some(location))]
  }

  // ---- the queue operations ----

  /** Removing an id a second time changes nothing. */
  lemma {:induction false} RemoveIdIdempotent(q: seq<InspectionRecord>, id: string)
    ensures RemoveId(RemoveId(q, id), id) == RemoveId(q, id)
  {
    if q != [] {
      var p := q[..|q| - 1];
      var x := q[|q| - 1];
      RemoveIdIdempotent(p, id);
      if x.id != id {
        var r := RemoveId(p, id) + [x];
        assert r[..|r| - 1] == RemoveId(p, id);
      }
    }
  }

  /** Removing two ids gives the same queue in either order. */
  lemma {:induction false} RemoveIdCommutes(q: seq<InspectionRecord>, a: string, b: string)
    ensures RemoveId(RemoveId(q, a), b) == RemoveId(RemoveId(q, b), a)
  {
    if q != [] {
      var p := q[..|q| - 1];
      var x := q[|q| - 1];
      RemoveIdCommutes(p, a, b);
      var pa := RemoveId(p, a);
      var pb := RemoveId(p, b);
      if x.id != a {
        assert (pa + [x])[..|pa|] == pa;
      }
      if x.id != b {
        assert (pb + [x])[..|pb|] == pb;
      }
    }
  }

  /** A queue without the id is left as it is. */
  lemma {:induction false} RemoveIdAbsent(q: seq<InspectionRecord>, id: string)
    requires !HasId(q, id)
    ensures RemoveId(q, id) == q
  {
    if q != [] {
      var p := q[..|q| - 1];
      var x := q[|q| - 1];
      assert !HasId(p, id) by {
        forall i | 0 <= i < |p| ensures p[i].id != id {
          assert p[i] == q[i];
        }
      }
      RemoveIdAbsent(p, id);
      assert x.id != id;
      assert q == p + [x];
    }
  }

  /** Dropping the entries of one id keeps the others' ids unique. */
  lemma {:induction false} RemoveIdKeepsUniqueIds(q: seq<InspectionRecord>, id: string)
    requires UniqueIds(q)
    ensures UniqueIds(RemoveId(q, id))
  {
    if q != [] {
      var p := q[..|q| - 1];
      var x := q[|q| - 1];
      assert UniqueIds(p);
      RemoveIdKeepsUniqueIds(p, id);
      if x.id != id {
        var kept := RemoveId(p, id);
        forall i | 0 <= i < |kept| ensures kept[i].id != x.id {
          assert kept[i] in p;
          var k :| 0 <= k < |p| && p[k] == kept[i];
          assert q[k] == kept[i];
        }
        UniqueAppend(kept, x);
      }
    }
  }

  /**
    After `addPending(record, location)` the queue has exactly one entry with
    the record's id, the last one, carrying the location; the entries of the
    other ids are those of before, in the same order; and ids stay unique.
   */
  lemma EnqueueSpec(q: seq<InspectionRecord>, record: InspectionRecord, location: string)
    ensures var r := Enqueue(q, record, location);
      && |r| >= 1
      && r[|r| - 1] == record.(sheetName := Some(location))
      && (forall i :: 0 <= i < |r| - 1 ==> r[i].id != record.id)
      && RemoveId(r, record.id) == RemoveId(q, record.id)
      && (UniqueIds(q) ==> UniqueIds(r))
  {
    var r := Enqueue(q, record, location);
    var kept := RemoveId(q, record.id);
    assert r[..|r| - 1] == kept;
    RemoveIdIdempotent(q, record.id);
    assert r[|r| - 1].id == record.id;
    forall i | 0 <= i < |r| - 1 ensures r[i].id != record.id {
      assert r[i] in kept;
    }
    if UniqueIds(q) {
      EnqueueKeepsUniqueIds(q, record, location);
    }
  }

  /** Over unique ids the enqueued queue keeps them unique. */
  lemma EnqueueKeepsUniqueIds(q: seq<InspectionRecord>, record: InspectionRecord, location: string)
    requires UniqueIds(q)
    ensures UniqueIds(Enqueue(q, record, location))
  {
    var kept := RemoveId(q, record.id);
    RemoveIdKeepsUniqueIds(q, record.id);
    assert !HasId(kept, record.id) by {
      forall i | 0 <= i < |kept| ensures kept[i].id != record.id {
        assert kept[i] in kept;
      }
    }
    UniqueAppend(kept, record.(sheetName := Some(location)));
  }

  // ---- reading back what was written ----

  /** A stringified record list parses back to its identified entries. */
  lemma {:induction false} ValidRecordsOfStringify(rs: seq<InspectionRecord>)
    ensures ValidRecords(Stringify(rs)) == KeepIdentified(rs)
  {
    if rs != [] {
      var p := rs[..|rs| - 1];
      ValidRecordsOfStringify(p);
      assert Stringify(rs)[..|rs| - 1] == Stringify(p);
    }
  }

  /** `setRecords` then `getRecords`: the valid entries written, in ascending `createdAt` order. */
  lemma SetThenGetRecords(data: seq<InspectionRecord>)
    ensures ReadRecords(ArrayOf(Stringify(data))) == SortByCreated(KeepIdentified(data))
    ensures Sorted(data) && AllIdentified(data) ==> ReadRecords(ArrayOf(Stringify(data))) == data
  {
    var v := ArrayOf(Stringify(data));
    assert SafeParse(v) == v;
    ValidRecordsOfStringify(data);
    assert ReadRecords(v) == SortByCreated(KeepIdentified(data));
    if Sorted(data) && AllIdentified(data) {
      SortSortedIdentity(data);
    }
  }

  /** The queue written by `addPending` reads back as written, minus a record without an id. */
  lemma EnqueueReadBack(q: seq<InspectionRecord>, record: InspectionRecord, location: string)
    requires AllIdentified(q)
    ensures ReadPending(ArrayOf(Stringify(Enqueue(q, record, location))))
         == if record.id != "" then Enqueue(q, record, location) else q
  {
    var r := Enqueue(q, record, location);
    ValidRecordsOfStringify(r);
    var kept := RemoveId(q, record.id);
    assert AllIdentified(kept) by {
      forall i | 0 <= i < |kept| ensures kept[i].id != "" {
        assert kept[i] in q;
      }
    }
    if record.id == "" {
      assert !HasId(q, "");
      RemoveIdAbsent(q, "");
      assert KeepIdentified(r) == KeepIdentified(kept) by {
        assert r[..|r| - 1] == kept;
      }
    } else {
      assert AllIdentified(r);
    }
  }

  /** The queue written by `removePending` reads back as written. */
  lemma RemoveReadBack(q: seq<InspectionRecord>, id: string)
    requires AllIdentified(q)
    ensures ReadPending(ArrayOf(Stringify(RemoveId(q, id)))) == RemoveId(q, id)
  {
    var r := RemoveId(q, id);
    ValidRecordsOfStringify(r);
    assert AllIdentified(r) by {
      forall i | 0 <= i < |r| ensures r[i].id != "" {
        assert r[i] in q;
      }
    }
  }

  /**
    The store object. Each slot is the parsed content of one storage key;
    `Valid` is the invariant `addPending` maintains: at most one queue entry
    per id.
   */
  class LocalStore {
    var recordSlots: map<string, Stored<Entry>>
    var pendingSlot: Stored<Entry>
    var locationsSlot: Stored<string>

    ghost predicate Valid()
      reads this`pendingSlot
    {
      UniqueIds(ReadPending(pendingSlot))
    }

    /** The store over whatever the device already holds. */
    constructor Open(records: map<string, Stored<Entry>>, pending: Stored<Entry>, locations: Stored<string>)
      requires UniqueIds(ReadPending(pending))
      ensures Valid()
      ensures recordSlots == records && pendingSlot == pending && locationsSlot == locations
    {
      recordSlots := records;
      pendingSlot := pending;
      locationsSlot := locations;
    }

    function RecordSlot(location: string): Stored<Entry>
      reads this`recordSlots
    {
      if location in recordSlots then recordSlots[location] else Missing
    }

    function GetRecords(location: string): (r: seq<InspectionRecord>)
      reads this`recordSlots
      ensures Sorted(r) && AllIdentified(r)
    {
      ReadRecords(RecordSlot(location))
    }

    function GetPending(): (r: seq<InspectionRecord>)
      reads this`pendingSlot
      ensures AllIdentified(r)
    {
      ReadPending(pendingSlot)
    }

    function GetLocations(): seq<string>
      reads this`locationsSlot
    {
      ReadLocations(locationsSlot)
    }

    /** `setRecords`: a failed write is swallowed and leaves the slot unchanged. */
    method SetRecords(location: string, data: seq<InspectionRecord>, writeOk: bool)
      requires Valid()
      modifies this`recordSlots
      ensures Valid()
      ensures recordSlots == if writeOk then old(recordSlots)[location := ArrayOf(Stringify(data))] else old(recordSlots)
      ensures writeOk ==> GetRecords(location) == SortByCreated(KeepIdentified(data))
    {
      if writeOk {
        recordSlots := recordSlots[location := ArrayOf(Stringify(data))];
        SetThenGetRecords(data);
      }
    }

    /** `addPending`: read the queue, drop the id, append the record with its location, write back. */
    method AddPending(record: InspectionRecord, location: string, writeOk: bool)
      requires Valid()
      modifies this`pendingSlot
      ensures Valid()
      ensures pendingSlot == if writeOk then ArrayOf(Stringify(Enqueue(old(GetPending()), record, location))) else old(pendingSlot)
      ensures GetPending() == if writeOk && record.id != "" then Enqueue(old(GetPending()), record, location) else old(GetPending())
    {
      var pending := GetPending();
      var newPending := Enqueue(pending, record, location);
      if writeOk {
        EnqueueReadBack(pending, record, location);
        EnqueueSpec(pending, record, location);
        pendingSlot := ArrayOf(Stringify(newPending));
        assert GetPending() == if record.id != "" then newPending else pending;
      }
    }

    /** `removePending`: read the queue, drop every entry with the id, write back. */
    method RemovePending(id: string, writeOk: bool)
      requires Valid()
      modifies this`pendingSlot
      ensures Valid()
      ensures pendingSlot == if writeOk then ArrayOf(Stringify(RemoveId(old(GetPending()), id))) else old(pendingSlot)
      ensures GetPending() == if writeOk then RemoveId(old(GetPending()), id) else old(GetPending())
    {
      var pending := GetPending();
      if writeOk {
        pendingSlot := ArrayOf(Stringify(RemoveId(pending, id)));
        RemoveReadBack(pending, id);
        RemoveIdKeepsUniqueIds(pending, id);
      }
    }

    /** `setLocations`: a failed write is swallowed and leaves the slot unchanged. */
    method SetLocations(locations: seq<string>, writeOk: bool)
      requires Valid()
      modifies this`locationsSlot
      ensures Valid()
      ensures locationsSlot == if writeOk then ArrayOf(locations) else old(locationsSlot)
      ensures GetLocations() == if writeOk then locations else old(GetLocations())
    {
      if writeOk {
        locationsSlot := ArrayOf(locations);
      }
    }
  }
}

=== FILE: sync.dfy ===
/**
  The record screen of App.tsx as one object: the offered locations, the
  chosen location, the records shown, the cursor over them and the count
  of unsent records, over the browser store. Each React state update and
  effect that changes them is a method; the network, `navigator.onLine`
  and whether each store write succeeds are parameters of the method that
  meets them.
 */
module Sync {
  import opened Wrappers
  import opened Records
  import opened Storage
  import opened Merge
  import opened Cursor

  /** How `handleSave` ended: no location chosen, sent, kept offline, or the send failed after the local save. */
  datatype SaveOutcome = NoLocation | Sent | KeptOffline | SendFailed

  /** How `handleManualSync` ended; `Synced` carries the counts its final message reports. */
  datatype SyncOutcome = SyncOffline | SyncFailed(sentCount: nat) | Synced(sentCount: nat, receivedCount: nat)

  /** The sheet a queued record is sent to: `r.sheetName || location`. */
  function TargetSheet(r: InspectionRecord, location: string): (s: string)
    ensures r.sheetName.Some? && r.sheetName.value != "" ==> s == r.sheetName.value
    ensures r.sheetName.None? || r.sheetName.value == "" ==> s == location
  {
    match r.sheetName
    case Some(v) => if v != "" then v else location
    case None => location
  }

  /**
    One `saveRecord(record, sheet)` call; the service posts the record with
    `sheet` as its `sheetName`.
   */
  datatype Delivery = Delivery(record: InspectionRecord, sheet: string)

  /** The `saveRecord` calls a drain makes for `rs`, one after the other. */
  function Deliveries(rs: seq<InspectionRecord>, location: string): (ds: seq<Delivery>)
    ensures |ds| == |rs|
    ensures forall i :: 0 <= i < |rs| ==> ds[i] == Delivery(rs[i], TargetSheet(rs[i], location))
  {
    if rs == [] then []
    else
      var p := rs[..|rs| - 1];
      var r := rs[|rs| - 1];
      var dp := Deliveries(p, location);
      assert forall i :: 0 <= i < |p| ==> p[i] == rs[i];
      dp + [Delivery(r, TargetSheet(r, location))]
  }

  /** Sending one more entry of the queue adds one call at the end. */
  lemma DeliveriesSnoc(all: seq<InspectionRecord>, n: nat, location: string)
    requires n < |all|
    ensures Deliveries(all[..n + 1], location) == Deliveries(all[..n], location) + [Delivery(all[n], TargetSheet(all[n], location))]
  {
    assert all[..n + 1][..n] == all[..n];
  }

  /**
    A record queued by a save carries the sheet it was saved for, and a
    later drain sends it there whatever location is chosen by then; the
    entries queued before it are sent first, in their order, to their own
    target sheets.
   */
  lemma QueuedGoesToSavedSheet(q: seq<InspectionRecord>, record: InspectionRecord, saved: string, current: string)
    requires saved != ""
    ensures var ds := Deliveries(Enqueue(q, record, saved), current);
      && |ds| == |RemoveId(q, record.id)| + 1
      && ds[|ds| - 1] == Delivery(record.(sheetName := Some(saved)), saved)
      && ds[..|ds| - 1] == Deliveries(RemoveId(q, record.id), current)
  {
    var kept := RemoveId(q, record.id);
    var tagged := record.(sheetName := Some(saved));
    assert Enqueue(q, record, saved) == kept + [tagged];
    assert (kept + [tagged])[..|kept|] == kept;
  }

  /**
    The badge count a manual sync leaves, as App.tsx:196-213 sets it: kept
    as it was when a send fails, and 0 after a full drain, whether or not the
    removals were written.
   */
  function SyncedCountAsWritten(oldCount: nat, failed: bool): nat {
    if failed then oldCount else 0
  }

  /**
    Starting from a count equal to the queue length, the count as written
    matches the queue left behind only when no removal took effect after a
    failure, or every removal took effect after a full drain.
   */
  lemma SyncedCountDrifts(all: seq<InspectionRecord>, n: nat, storeOk: bool)
    requires n <= |all|
    ensures SyncedCountAsWritten(|all|, n < |all|) == |QueueAfter(all, n, storeOk)| <==>
      if n < |all| then !storeOk || n == 0 else storeOk || all == []
  {
  }

  /**
    Two queued records, the first sent and removed, the second failing: the
    badge still shows 2 for a queue of 1. One queued record sent while its
    removal write is dropped: the badge shows 0 for a queue of 1.
   */
  lemma SyncedCountMisreports()
    ensures var a := InitialRecordState.(id := "a");
      var b := InitialRecordState.(id := "b");
      && SyncedCountAsWritten(2, true) == 2 && |QueueAfter([a, b], 1, true)| == 1
      && SyncedCountAsWritten(1, false) == 0 && |QueueAfter([a], 1, false)| == 1
  {
  }

  /** The corrected count: the length of the queue as the drain left it, read back after the sync. */
  function SyncedCountCorrected(all: seq<InspectionRecord>, n: nat, storeOk: bool): (c: nat)
    requires n <= |all|
    ensures c <= |all|
    ensures storeOk ==> c == |all| - n
    ensures !storeOk ==> c == |all|
  {
    |QueueAfter(all, n, storeOk)|
  }

  /** The corrected count agrees with the count as written wherever that one was right. */
  lemma SyncedCountCorrectedAgrees(all: seq<InspectionRecord>, n: nat, storeOk: bool)
    requires n <= |all|
    requires if n < |all| then !storeOk || n == 0 else storeOk || all == []
    ensures SyncedCountCorrected(all, n, storeOk) == SyncedCountAsWritten(|all|, n < |all|)
  {
    SyncedCountDrifts(all, n, storeOk);
  }

  /** The queue once the first `n` entries of `all` were sent: each removal took effect only if the store accepted the write. */
  function QueueAfter(all: seq<InspectionRecord>, n: nat, writesOk: bool): seq<InspectionRecord>
    requires n <= |all|
  {
    if writesOk then all[n..] else all
  }

  class App {
    const store: LocalStore
    var locations: seq<string>
    var location: string
    var records: seq<InspectionRecord>
    var viewIndex: nat
    var pendingCount: nat

    /** The store keeps one queue entry per id. */
    ghost predicate Valid()
      reads store`pendingSlot
    {
      store.Valid()
    }

    /**
      The cursor lies within `0..|records|`: on a record, or on the slot of a
      new one. Every operation keeps this except a manual sync that fetches an
      empty list, which leaves the cursor where it was.
     */
    predicate CursorInRange()
      reads this`records, this`viewIndex
    {
      viewIndex <= |records|
    }

    /** The initial state: no locations, none chosen, no records, cursor 0, nothing counted. */
    constructor (store: LocalStore)
      requires store.Valid()
      ensures Valid() && CursorInRange()
      ensures this.store == store
      ensures locations == [] && location == "" && records == [] && viewIndex == 0 && pendingCount == 0
    {
      this.store := store;
      locations := [];
      location := "";
      records := [];
      viewIndex := 0;
      pendingCount := 0;
    }

    /**
      The first effect: offer the cached locations and choose the first;
      then, online, a non-empty fetched list replaces them and is cached,
      and chooses its first only when the cache was empty. A failed fetch
      (`fetched` is None) changes nothing further.
     */
    method InitLocations(online: bool, fetched: Option<seq<string>>, storeOk: bool)
      requires Valid()
      modifies this, store
      ensures Valid()
      ensures var cached := old(store.GetLocations());
        var got := online && fetched.Some? && |fetched.value| > 0;
        && locations == (if got then fetched.value else if |cached| > 0 then cached else old(locations))
        && location == (if |cached| > 0 then cached[0] else if got then fetched.value[0] else old(location))
        && (got ==> store.GetLocations() == if storeOk then fetched.value else cached)
        && (!got ==> unchanged(store`locationsSlot))
      ensures unchanged(store`recordSlots, store`pendingSlot)
      ensures unchanged(this`records, this`viewIndex, this`pendingCount)
    {
      var cached := store.GetLocations();
      if |cached| > 0 {
        locations := cached;
        location := cached[0];
      }
      if online && fetched.Some? && |fetched.value| > 0 {
        locations := fetched.value;
        store.SetLocations(fetched.value, storeOk);
        if |cached| == 0 {
          location := fetched.value[0];
        }
      }
    }

    /** The location selector: choosing a location (which then loads it). */
    method SelectLocation(choice: string)
      requires Valid()
      modifies this
      ensures Valid()
      ensures location == choice
      ensures unchanged(this`locations, this`records, this`viewIndex, this`pendingCount)
    {
      location := choice;
    }

    /**
      The load effect up to its network call: with no location nothing
      happens; otherwise the stored records of the location merged with its
      queued records are shown, the cursor is on the last of them, and the
      count covers the whole queue.
     */
    method LoadLocal()
      requires Valid()
      modifies this
      ensures Valid()
      ensures unchanged(this`location, this`locations)
      ensures location == "" ==> unchanged(this`records, this`viewIndex, this`pendingCount)
      ensures location != "" ==>
        && records == LocalMerge(store.GetRecords(location), ForLocation(store.GetPending(), location))
        && viewIndex == ResetCursor(|records|)
        && pendingCount == |store.GetPending()|
        && CursorInRange()
    {
      if location != "" {
        var localData := store.GetRecords(location);
        var pending := ForLocation(store.GetPending(), location);
        pendingCount := |store.GetPending()|;
        var mergedLocal := MergeLocal(localData, pending);
        records := mergedLocal;
        viewIndex := ResetCursor(|mergedLocal|);
        assert store.GetRecords(location) == localData;
        assert ForLocation(store.GetPending(), location) == pending;
      }
    }

    /**
      The load effect's background fetch, applied only online, when the
      fetch returned (`cloud` is Some) and the effect is still current
      (`mounted`): the cloud list overlaid by the location's queued records
      is stored for the location, shown, and the cursor put on its last
      record. Otherwise nothing changes.
     */
    method ApplyCloudFetch(online: bool, cloud: Option<seq<InspectionRecord>>, mounted: bool, storeOk: bool)
      requires Valid()
      modifies this, store
      ensures Valid()
      ensures var applied := location != "" && online && cloud.Some? && mounted;
        && (applied ==>
          && records == RemoteMerge(cloud.value, ForLocation(old(store.GetPending()), location))
          && viewIndex == ResetCursor(|records|) && CursorInRange()
          && store.recordSlots == if storeOk then old(store.recordSlots)[location := ArrayOf(Stringify(records))]
                                  else old(store.recordSlots))
        && (!applied ==> unchanged(this`records, this`viewIndex, store`recordSlots))
      ensures unchanged(store`pendingSlot, store`locationsSlot)
      ensures unchanged(this`location, this`locations, this`pendingCount)
    {
      if location != "" && online && cloud.Some? && mounted {
        var currentPending := ForLocation(store.GetPending(), location);
        var finalMerged := MergeRemote(cloud.value, currentPending);
        store.SetRecords(location, finalMerged, storeOk);
        records := finalMerged;
        viewIndex := ResetCursor(|finalMerged|);
      }
    }

    /**
      `handleSave` up to its network call: the record replaces the shown
      record with its id or is appended (and then shown), the list is stored
      for the location, and the record is queued.
     */
    method SaveLocally(recordToSave: InspectionRecord, storeOk: bool)
      requires Valid() && location != ""
      modifies this, store
      ensures Valid()
      ensures records == Upsert(old(records), recordToSave)
      ensures viewIndex == (if HasId(old(records), recordToSave.id) then old(viewIndex) else |records| - 1)
      ensures old(CursorInRange()) ==> CursorInRange()
      ensures store.recordSlots == (if storeOk then old(store.recordSlots)[location := ArrayOf(Stringify(records))]
                                    else old(store.recordSlots))
      ensures store.GetPending() == (if storeOk && recordToSave.id != "" then Enqueue(old(store.GetPending()), recordToSave, location)
                                     else old(store.GetPending()))
      ensures pendingCount == |store.GetPending()|
      ensures unchanged(this`location, this`locations, store`locationsSlot)
    {
      ghost var queue := store.GetPending();
      ShowSaved(recordToSave);
      assert store.GetPending() == queue;
      label shown:
      WriteSaved(recordToSave, storeOk);
      assert unchanged@shown(this`location, this`locations);
    }

    /** The screen half of the local save: the record list after the upsert, and the cursor on an appended record. */
    method ShowSaved(recordToSave: InspectionRecord)
      requires Valid()
      modifies this
      ensures Valid()
      ensures records == Upsert(old(records), recordToSave)
      ensures viewIndex == (if HasId(old(records), recordToSave.id) then old(viewIndex) else |records| - 1)
      ensures old(CursorInRange()) ==> CursorInRange()
      ensures unchanged(this`location, this`locations, this`pendingCount)
    {
      var existingIdx := IndexOfId(records, recordToSave.id);
      var newRecords := Upsert(records, recordToSave);
      assert existingIdx == -1 <==> !HasId(records, recordToSave.id);
      assert |newRecords| >= |records| && |newRecords| >= 1;
      records := newRecords;
      if existingIdx == -1 {
        viewIndex := |newRecords| - 1;
      }
    }

    /** The storage half of the local save: the shown list written for the location, the record queued, the queue counted. */
    method WriteSaved(recordToSave: InspectionRecord, storeOk: bool)
      requires Valid()
      modifies this`pendingCount, store
      ensures Valid()
      ensures store.recordSlots == (if storeOk then old(store.recordSlots)[location := ArrayOf(Stringify(records))]
                                    else old(store.recordSlots))
      ensures store.GetPending() == (if storeOk && recordToSave.id != "" then Enqueue(old(store.GetPending()), recordToSave, location)
                                     else old(store.GetPending()))
      ensures pendingCount == |store.GetPending()|
      ensures unchanged(store`locationsSlot)
    {
      ghost var queue := store.GetPending();
      store.SetRecords(location, records, storeOk);
      assert store.GetPending() == queue;
      label written:
      store.AddPending(recordToSave, location, storeOk);
      assert unchanged@written(store`locationsSlot, store`recordSlots);
      pendingCount := |store.GetPending()|;
    }

    /**
      `handleSave`. With no location nothing changes. Otherwise the form's
      record, tagged with the location, is saved locally and queued before
      the network is tried. Only a successful send removes the id from the
      queue; offline or on a failed send it stays queued and the local
      write stands.
     */
    method Save(form: InspectionRecord, online: bool, sendOk: bool, storeOk: bool) returns (outcome: SaveOutcome)
      requires Valid()
      modifies this, store
      ensures Valid()
      ensures unchanged(this`location, this`locations)
      ensures old(location) == "" ==>
        && outcome == NoLocation
        && unchanged(this`records, this`viewIndex, this`pendingCount, store`recordSlots, store`pendingSlot)
      ensures old(location) != "" ==>
        var saved := form.(sheetName := Some(location));
        && records == Upsert(old(records), saved)
        && viewIndex == (if HasId(old(records), saved.id) then old(viewIndex) else |records| - 1)
      ensures old(location) != "" ==>
        && store.recordSlots == (if storeOk then old(store.recordSlots)[location := ArrayOf(Stringify(records))]
                                 else old(store.recordSlots))
        && outcome == (if !online then KeptOffline else if sendOk then Sent else SendFailed)
      ensures old(location) != "" ==>
        var saved := form.(sheetName := Some(location));
        var queued := if storeOk && saved.id != "" then Enqueue(old(store.GetPending()), saved, location)
                      else old(store.GetPending());
        && store.GetPending() == (if online && sendOk && storeOk then RemoveId(queued, saved.id) else queued)
        && pendingCount == |store.GetPending()|
      ensures old(CursorInRange()) ==> CursorInRange()
      ensures unchanged(store`locationsSlot)
    {
      if location == "" {
        return NoLocation;
      }
      var recordToSave := form.(sheetName := Some(location));
      SaveLocally(recordToSave, storeOk);
      label saved:
      outcome := SendSaved(recordToSave.id, online, sendOk, storeOk);
      assert unchanged@saved(this`location, this`locations, this`records, this`viewIndex);
    }

    /**
      The network half of `handleSave`: offline nothing is sent; online the
      send either succeeds, and then the id leaves the queue and the queue is
      counted again, or fails and changes nothing.
     */
    method SendSaved(id: string, online: bool, sendOk: bool, storeOk: bool) returns (outcome: SaveOutcome)
      requires Valid()
      modifies this`pendingCount, store
      ensures Valid()
      ensures outcome == (if !online then KeptOffline else if sendOk then Sent else SendFailed)
      ensures online && sendOk ==>
        && store.GetPending() == (if storeOk then RemoveId(old(store.GetPending()), id) else old(store.GetPending()))
        && pendingCount == |store.GetPending()|
      ensures !(online && sendOk) ==> unchanged(this`pendingCount, store`pendingSlot)
      ensures store.GetPending() == (if online && sendOk && storeOk then RemoveId(old(store.GetPending()), id) else old(store.GetPending()))
      ensures unchanged(store`recordSlots, store`locationsSlot)
    {
      if online {
        if sendOk {
          store.RemovePending(id, storeOk);
          pendingCount := |store.GetPending()|;
          outcome := Sent;
        } else {
          outcome := SendFailed;
        }
      } else {
        outcome := KeptOffline;
      }
    }

    /**
      The first step of the manual sync: send the queue in order and remove
      each entry once its send succeeded, stopping at the first failure.
      Returns how many were sent, whether one failed, and the `saveRecord`
      calls made, in order: one per sent entry, plus the rejected call for
      the entry that failed.
     */
    method DrainPending(delivered: nat, storeOk: bool) returns (count: nat, failed: bool, calls: seq<Delivery>)
      requires Valid()
      modifies store`pendingSlot
      ensures Valid()
      ensures count == (if delivered < |old(store.GetPending())| then delivered else |old(store.GetPending())|)
      ensures failed == (delivered < |old(store.GetPending())|)
      ensures store.GetPending() == QueueAfter(old(store.GetPending()), count, storeOk)
      ensures calls == Deliveries(old(store.GetPending())[..if failed then count + 1 else count], location)
    {
      var allPending := store.GetPending();
      count := 0;
      calls := [];
      assert QueueAfter(allPending, 0, storeOk) == allPending;
      // the send of entry `count` succeeds while `count < delivered`
      while count < |allPending| && count < delivered
        invariant count <= |allPending| && count <= delivered
        invariant Valid()
        invariant store.GetPending() == QueueAfter(allPending, count, storeOk)
        invariant calls == Deliveries(allPending[..count], location)
      {
        var r := allPending[count];
        DeliveriesSnoc(allPending, count, location);
        calls := calls + [Delivery(r, TargetSheet(r, location))];
        RemoveSent(r, allPending, count, storeOk);
        count := count + 1;
      }
      failed := count < |allPending|;
      if failed {
        // the call for entry `count` is made and rejects, which ends the loop before the removal
        var r := allPending[count];
        DeliveriesSnoc(allPending, count, location);
        calls := calls + [Delivery(r, TargetSheet(r, location))];
      }
    }

    /** One successful send of the drain: the sent record, at the head of what is left, leaves the queue. */
    method RemoveSent(r: InspectionRecord, ghost all: seq<InspectionRecord>, ghost n: nat, storeOk: bool)
      requires Valid() && n < |all| && r == all[n]
      requires store.GetPending() == QueueAfter(all, n, storeOk)
      modifies store`pendingSlot
      ensures Valid()
      ensures store.GetPending() == QueueAfter(all, n + 1, storeOk)
    {
      if storeOk {
        assert all[n..][1..] == all[n + 1..];
        RemoveHead(all[n..]);
      }
      store.RemovePending(r.id, storeOk);
    }

    /**
      `handleManualSync`. Offline nothing changes. Online the queue is sent
      in order, each entry removed only after its send succeeds; `delivered`
      is how many sends succeed before one fails. A failure ends the sync:
      the sent entries stay removed, the rest stay queued, and nothing else
      changes. After a full drain a non-empty fetched location list replaces
      the offered one and is cached; then the fetched records of the location
      replace the shown ones (no merge) and are stored, and the count drops
      to 0. The cursor moves to the last fetched record only when there is
      one; over an empty fetched list it stays where it was, and so leaves
      the range of the list unless it was at 0. A failed fetch (None) ends
      the sync at that point. `calls` are the `saveRecord` calls made, the
      rejected one included.
     */
    method ManualSync(online: bool, delivered: nat, fetchedLocs: Option<seq<string>>,
                      cloud: Option<seq<InspectionRecord>>, storeOk: bool)
      returns (outcome: SyncOutcome, calls: seq<Delivery>)
      requires Valid()
      modifies this`locations, this`records, this`pendingCount, this`viewIndex
      modifies store`pendingSlot, store`locationsSlot, store`recordSlots
      ensures Valid()
      ensures unchanged(this`location)
      ensures !online ==>
        && outcome == SyncOffline && calls == []
        && unchanged(this`records, this`viewIndex, this`pendingCount, this`locations)
        && unchanged(store`pendingSlot, store`recordSlots, store`locationsSlot)
      ensures online ==>
        var all := old(store.GetPending());
        calls == Deliveries(all[..if delivered < |all| then delivered + 1 else |all|], location)
      ensures online ==>
        var all := old(store.GetPending());
        var n := if delivered < |all| then delivered else |all|;
        store.GetPending() == (if storeOk then all[n..] else all)
      ensures online && delivered < |old(store.GetPending())| ==>
        && outcome == SyncFailed(delivered)
        && unchanged(this`records, this`viewIndex, this`pendingCount, this`locations)
        && unchanged(store`recordSlots, store`locationsSlot)
      ensures online && delivered >= |old(store.GetPending())| ==>
        var got := fetchedLocs.Some? && |fetchedLocs.value| > 0;
        && locations == (if got then fetchedLocs.value else old(locations))
        && store.GetLocations() == (if got && storeOk then fetchedLocs.value else old(store.GetLocations()))
      ensures online && delivered >= |old(store.GetPending())| && fetchedLocs.Some? && cloud.Some? ==>
        && outcome == Synced(|old(store.GetPending())|, |cloud.value|)
        && records == cloud.value && pendingCount == 0
        && viewIndex == ManualSyncCursorAsWritten(old(viewIndex), |cloud.value|)
        && (CursorInRange() <==> |cloud.value| > 0 || old(viewIndex) == 0)
        && store.recordSlots == (if storeOk then old(store.recordSlots)[location := ArrayOf(Stringify(cloud.value))]
                                 else old(store.recordSlots))
      ensures online && delivered >= |old(store.GetPending())| && (fetchedLocs.None? || cloud.None?) ==>
        && outcome == SyncFailed(|old(store.GetPending())|)
        && unchanged(this`records, this`viewIndex, this`pendingCount, store`recordSlots)
    {
      calls := [];
      if !online {
        return SyncOffline, calls;
      }
      var count, failed;
      count, failed, calls := DrainPending(delivered, storeOk);
      if failed {
        return SyncFailed(count), calls;
      }
      var fetched := Refresh(fetchedLocs, cloud, storeOk);
      outcome := if fetched then Synced(count, |cloud.value|) else SyncFailed(count);
    }

    /**
      Steps 2 and 3 of a manual sync, after a full drain. A failed fetch
      (None) ends the sync at that point; `fetched` says whether both
      fetches returned.
     */
    method Refresh(fetchedLocs: Option<seq<string>>, cloud: Option<seq<InspectionRecord>>, storeOk: bool)
      returns (fetched: bool)
      requires Valid()
      modifies this`locations, this`records, this`pendingCount, this`viewIndex, store`locationsSlot, store`recordSlots
      ensures Valid()
      ensures fetched == (fetchedLocs.Some? && cloud.Some?)
      ensures var got := fetchedLocs.Some? && |fetchedLocs.value| > 0;
        && locations == (if got then fetchedLocs.value else old(locations))
        && store.GetLocations() == (if got && storeOk then fetchedLocs.value else old(store.GetLocations()))
      ensures fetched ==>
        && records == cloud.value && pendingCount == 0
        && viewIndex == ManualSyncCursorAsWritten(old(viewIndex), |cloud.value|)
        && (CursorInRange() <==> |cloud.value| > 0 || old(viewIndex) == 0)
        && store.recordSlots == (if storeOk then old(store.recordSlots)[location := ArrayOf(Stringify(cloud.value))]
                                 else old(store.recordSlots))
      ensures !fetched ==> unchanged(this`records, this`viewIndex, this`pendingCount, store`recordSlots)
    {
      if fetchedLocs.None? {
        return false;
      }
      RefreshLocations(fetchedLocs.value, storeOk);
      if cloud.None? {
        return false;
      }
      RefreshRecords(cloud.value, storeOk);
      fetched := true;
    }

    /**
      Step 2 of a manual sync: a non-empty fetched list of sheet names
      replaces the offered locations and is cached; an empty one changes
      nothing.
     */
    method RefreshLocations(fetched: seq<string>, storeOk: bool)
      requires Valid()
      modifies this`locations, store`locationsSlot
      ensures Valid()
      ensures locations == (if |fetched| > 0 then fetched else old(locations))
      ensures store.GetLocations() == (if |fetched| > 0 && storeOk then fetched else old(store.GetLocations()))
    {
      if |fetched| > 0 {
        locations := fetched;
        store.SetLocations(fetched, storeOk);
      }
    }

    /**
      Step 3 of a manual sync: the fetched records of the location replace
      the shown ones and are stored, the count drops to 0, and the cursor
      moves to the last fetched record when there is one (it stays put on an
      empty list, which leaves it out of range unless it was at 0).
     */
    method RefreshRecords(cloud: seq<InspectionRecord>, storeOk: bool)
      requires Valid()
      modifies this`records, this`pendingCount, this`viewIndex, store`recordSlots
      ensures Valid()
      ensures records == cloud && pendingCount == 0
      ensures viewIndex == ManualSyncCursorAsWritten(old(viewIndex), |cloud|)
      ensures CursorInRange() <==> |cloud| > 0 || old(viewIndex) == 0
      ensures store.recordSlots == (if storeOk then old(store.recordSlots)[location := ArrayOf(Stringify(cloud))]
                                    else old(store.recordSlots))
    {
      records := cloud;
      pendingCount := 0;
      if |cloud| > 0 {
        viewIndex := |cloud| - 1;
      }
      store.SetRecords(location, cloud, storeOk);
    }

    /**
      The "previous" button, enabled while the cursor is above 0. The
      navigator is hidden until a location is chosen; the model does not
      check this, since the list is empty until then and the cursor cannot
      move back from 0.
     */
    method Previous()
      requires Valid()
      modifies this
      ensures Valid()
      ensures viewIndex == StepBack(old(viewIndex))
      ensures old(CursorInRange()) ==> CursorInRange()
      ensures unchanged(this`records, this`location, this`locations, this`pendingCount)
    {
      if viewIndex > 0 {
        viewIndex := viewIndex - 1;
      }
    }

    /**
      The "next" button, enabled while the cursor is below the new-record
      slot. The navigator is hidden until a location is chosen; the model
      does not check this, since the list is empty until then.
     */
    method Next()
      requires Valid()
      modifies this
      ensures Valid()
      ensures viewIndex == StepForward(|records|, old(viewIndex))
      ensures old(CursorInRange()) ==> CursorInRange()
      ensures unchanged(this`records, this`location, this`locations, this`pendingCount)
    {
      if viewIndex < |records| {
        viewIndex := viewIndex + 1;
      }
    }

    /**
      The "new record" button, shown outside new mode once locations are
      known and no load is in progress: it moves the cursor to the slot past
      the last record.
     */
    method StartNew(loadingData: bool)
      requires Valid()
      modifies this
      ensures Valid()
      ensures viewIndex == (if NewButtonShown(|records|, old(viewIndex), loadingData, |locations|) then |records| else old(viewIndex))
      ensures old(CursorInRange()) ==> CursorInRange()
      ensures unchanged(this`records, this`location, this`locations, this`pendingCount)
    {
      if NewButtonShown(|records|, viewIndex, loadingData, |locations|) {
        viewIndex := |records|;
      }
    }
  }

  /**
    Saving the record under the cursor keeps the list's length and puts the
    edited record in that record's place when it is the first with its id;
    saving a new-slot record whose id is not yet shown appends it at the end.
   */
  lemma SaveShownRecordInPlace(records: seq<InspectionRecord>, viewIndex: nat, edited: InspectionRecord)
    requires viewIndex < |records| && edited.id == records[viewIndex].id
    requires forall j :: 0 <= j < viewIndex ==> records[j].id != edited.id
    ensures |Upsert(records, edited)| == |records| && Upsert(records, edited)[viewIndex] == edited
    ensures forall j :: 0 <= j < |records| && j != viewIndex ==> Upsert(records, edited)[j] == records[j]
  {
    assert HasId(records, edited.id);
    assert IndexOfId(records, edited.id) == viewIndex;
  }

  /**
    The records a successful cloud fetch shows are exactly what a later read
    of the location's slot returns (when the write succeeded), with one entry
    per id, the queued version of an id in preference to the fetched one.
   */
  lemma CloudMergeIsStored(cloud: seq<InspectionRecord>, pending: seq<InspectionRecord>)
    ensures var r := RemoteMerge(cloud, pending);
      ReadRecords(ArrayOf(Stringify(r))) == r && UniqueIds(r)
  {
    RemoteMergeSpec(cloud, pending);
    SetThenGetRecords(RemoteMerge(cloud, pending));
  }
}

=== FILE: synthesis.dfy ===
/**
  The record the form starts from in App.tsx when no saved record is
  shown: today's date, a readable id built from the location, the date and
  a random suffix, the creation time, and the defaults of every other field.
  The clock, the time stamp and the random suffix are parameters.
 */
module Synthesis {
  import opened Wrappers
  import opened Records
  import opened Digits
  import opened DateFields
  import opened Cursor

  /** `getToday()`: the clock's local date, "YYYY-MM-DD" with month and day padded. */
  function Today(clock: JsDate): string {
    DateText(clock)
  }

  /** The date field reads today's text back as the clock's date. */
  lemma TodayReadsBack(clock: JsDate)
    requires ValidDate(clock) && clock.year >= 100
    ensures ParseDate(Today(clock)) == Some(clock)
  {
    ParseFormatRoundTrip(clock);
  }

  /** `replace(/-/g, '')` */
  function StripDashes(s: string): (r: string)
    ensures '-' !in r && |r| <= |s|
    ensures '-' !in s ==> r == s
  {
    if s == [] then []
    else if s[0] == '-' then StripDashes(s[1..])
    else
      assert s == [s[0]] + s[1..];
      [s[0]] + StripDashes(s[1..])
  }

  lemma {:induction false} StripDashesConcat(a: string, b: string)
    ensures StripDashes(a + b) == StripDashes(a) + StripDashes(b)
  {
    if a == [] {
      assert a + b == b;
    } else {
      assert (a + b)[0] == a[0];
      assert (a + b)[1..] == a[1..] + b;
      StripDashesConcat(a[1..], b);
    }
  }

  lemma DigitsConcat(a: string, b: string)
    requires AllDigits(a) && AllDigits(b)
    ensures AllDigits(a + b)
  {
    forall i | 0 <= i < |a + b| ensures IsDigit((a + b)[i]) {
      if i >= |a| {
        assert (a + b)[i] == b[i - |a|];
      }
    }
  }

  /** Removing the dashes of three dash-free parts joined by dashes concatenates the parts. */
  lemma StripJoinedParts(a: string, b: string, c: string)
    requires '-' !in a && '-' !in b && '-' !in c
    ensures StripDashes(a + "-" + b + "-" + c) == a + b + c
  {
    var dash := "-";
    assert StripDashes(dash) == [] by {
      assert dash[1..] == [];
    }
    var t1 := a + dash;
    StripDashesConcat(a, dash);
    assert StripDashes(t1) == a;
    var t2 := t1 + b;
    StripDashesConcat(t1, b);
    assert StripDashes(t2) == a + b;
    var t3 := t2 + dash;
    StripDashesConcat(t2, dash);
    assert StripDashes(t3) == a + b;
    StripDashesConcat(t3, c);
    assert a + "-" + b + "-" + c == t3 + c;
  }

  /** The date part of an id: the year's digits, then month and day as two digits each. */
  lemma DatePartDigits(clock: JsDate)
    ensures StripDashes(Today(clock)) == NatToString(clock.year) + Pad2(clock.monthIndex + 1) + Pad2(clock.day)
    ensures AllDigits(StripDashes(Today(clock)))
  {
    var y := NatToString(clock.year);
    var m := Pad2(clock.monthIndex + 1);
    var d := Pad2(clock.day);
    DigitsHaveNoDash(y);
    DigitsHaveNoDash(m);
    DigitsHaveNoDash(d);
    StripJoinedParts(y, m, d);
    DigitsConcat(y, m);
    DigitsConcat(y + m, d);
  }

  /** The characters JavaScript's `\s` matches. */
  predicate IsSpace(c: char) {
    var n := c as int;
    n == 0x20 || 0x09 <= n <= 0x0D || n == 0xA0 || n == 0x1680 || 0x2000 <= n <= 0x200A
    || n == 0x2028 || n == 0x2029 || n == 0x202F || n == 0x205F || n == 0x3000 || n == 0xFEFF
  }

  predicate NoSpace(s: string) {
    forall i :: 0 <= i < |s| ==> !IsSpace(s[i])
  }

  /** What follows a run of whitespace at the start of `s`. */
  function SkipSpaces(s: string): (r: string)
    ensures |r| <= |s| && r == s[|s| - |r|..]
    ensures r != [] ==> !IsSpace(r[0])
    ensures s != [] && IsSpace(s[0]) ==> |r| < |s|
  {
    if s != [] && IsSpace(s[0]) then SkipSpaces(s[1..]) else s
  }

  /** `replace(/\s+/g, '_')`: every maximal run of whitespace becomes one underscore. */
  function UnderscoreSpaces(s: string): (r: string)
    ensures NoSpace(r)
    ensures NoSpace(s) ==> r == s
    decreases |s|
  {
    if s == [] then []
    else if IsSpace(s[0]) then "_" + UnderscoreSpaces(SkipSpaces(s))
    else
      var rest := UnderscoreSpaces(s[1..]);
      assert NoSpace(s) ==> NoSpace(s[1..]) by {
        if NoSpace(s) {
          forall i | 0 <= i < |s[1..]| ensures !IsSpace(s[1..][i]) {
            assert s[1..][i] == s[i + 1];
          }
        }
      }
      assert NoSpace(s) ==> s == [s[0]] + s[1..];
      [s[0]] + rest
  }

  /** Skipping a run of whitespace lands on what follows it. */
  lemma {:induction false} SkipSpacesRun(w: string, b: string)
    requires forall i :: 0 <= i < |w| ==> IsSpace(w[i])
    requires b == [] || !IsSpace(b[0])
    ensures SkipSpaces(w + b) == b
  {
    if w != [] {
      assert (w + b)[0] == w[0];
      assert (w + b)[1..] == w[1..] + b;
      SkipSpacesRun(w[1..], b);
    } else {
      assert w + b == b;
    }
  }

  lemma NoSpaceTail(a: string)
    requires NoSpace(a) && a != []
    ensures NoSpace(a[1..]) && !IsSpace(a[0])
  {
    forall i | 0 <= i < |a[1..]| ensures !IsSpace(a[1..][i]) {
      assert a[1..][i] == a[i + 1];
    }
  }

  /** A leading character that is not whitespace is kept as it is. */
  lemma UnderscoreSpacesCons(c: char, t: string)
    requires !IsSpace(c)
    ensures UnderscoreSpaces([c] + t) == [c] + UnderscoreSpaces(t)
  {
    assert ([c] + t)[0] == c && ([c] + t)[1..] == t;
  }

  /** A leading whitespace run becomes one underscore. */
  lemma UnderscoreSpacesLeadingRun(w: string, b: string)
    requires w != [] && forall i :: 0 <= i < |w| ==> IsSpace(w[i])
    requires b == [] || !IsSpace(b[0])
    ensures UnderscoreSpaces(w + b) == "_" + UnderscoreSpaces(b)
  {
    assert (w + b)[0] == w[0];
    SkipSpacesRun(w, b);
  }

  lemma AppendAssoc(x: string, y: string, z: string)
    ensures x + (y + z) == (x + y) + z
  {
  }

  /** Text without whitespace in front is kept as it is. */
  lemma {:induction false} UnderscoreSpacesPrefix(a: string, t: string)
    requires NoSpace(a)
    ensures UnderscoreSpaces(a + t) == a + UnderscoreSpaces(t)
  {
    if a == [] {
      assert a + t == t;
    } else {
      var c, rest := a[0], a[1..];
      NoSpaceTail(a);
      calc {
        UnderscoreSpaces(a + t);
      == { assert a + t == [c] + (rest + t); }
        UnderscoreSpaces([c] + (rest + t));
      == { UnderscoreSpacesCons(c, rest + t); }
        [c] + UnderscoreSpaces(rest + t);
      == { UnderscoreSpacesPrefix(rest, t); }
        [c] + (rest + UnderscoreSpaces(t));
      == { AppendAssoc([c], rest, UnderscoreSpaces(t)); assert [c] + rest == a; }
        a + UnderscoreSpaces(t);
      }
    }
  }

  /**
    A whitespace run between text without whitespace and text that does not
    start with whitespace becomes exactly one underscore; the text before it
    is kept as it is.
   */
  lemma UnderscoreSpacesRun(a: string, w: string, b: string)
    requires NoSpace(a)
    requires w != [] && forall i :: 0 <= i < |w| ==> IsSpace(w[i])
    requires b == [] || !IsSpace(b[0])
    ensures UnderscoreSpaces(a + w + b) == a + "_" + UnderscoreSpaces(b)
  {
    calc {
      UnderscoreSpaces(a + w + b);
    == { AppendAssoc(a, w, b); }
      UnderscoreSpaces(a + (w + b));
    == { UnderscoreSpacesPrefix(a, w + b); }
      a + UnderscoreSpaces(w + b);
    == { UnderscoreSpacesLeadingRun(w, b); }
      a + ("_" + UnderscoreSpaces(b));
    == { AppendAssoc(a, "_", UnderscoreSpaces(b)); }
      a + "_" + UnderscoreSpaces(b);
    }
  }

  /** The location part of an id: "temp" when no location is chosen. */
  function LocationPart(location: string): (r: string)
    ensures r != "" && NoSpace(r)
    ensures location == "" ==> r == "temp"
    ensures location != "" ==> r == UnderscoreSpaces(location)
  {
    if location == "" then "temp" else UnderscoreSpaces(location)
  }

  /** `rec_{location}_{YYYYMMDD}_{random}` */
  function NewId(location: string, clock: JsDate, suffix: string): string {
    "rec_" + LocationPart(location) + "_" + StripDashes(Today(clock)) + "_" + suffix
  }

  lemma NoSpaceConcat(a: string, b: string)
    requires NoSpace(a) && NoSpace(b)
    ensures NoSpace(a + b)
  {
    forall i | 0 <= i < |a + b| ensures !IsSpace((a + b)[i]) {
      if i >= |a| {
        assert (a + b)[i] == b[i - |a|];
      }
    }
  }

  /** Two ids built for the same location and day are equal only when their suffixes are. */
  lemma NewIdInjective(location: string, clock: JsDate, suffix: string, other: string)
    requires NewId(location, clock, suffix) == NewId(location, clock, other)
    ensures suffix == other
  {
    var prefix := "rec_" + LocationPart(location) + "_" + StripDashes(Today(clock)) + "_";
    assert NewId(location, clock, suffix) == prefix + suffix;
    assert NewId(location, clock, other) == prefix + other;
    assert suffix == (prefix + suffix)[|prefix|..];
    assert other == (prefix + other)[|prefix|..];
  }

  lemma DigitsNoSpace(s: string)
    requires AllDigits(s)
    ensures NoSpace(s)
  {
    forall i | 0 <= i < |s| ensures !IsSpace(s[i]) {
      assert IsDigit(s[i]);
    }
  }

  /** A built id carries no whitespace when the suffix carries none. */
  lemma NewIdNoSpace(location: string, clock: JsDate, suffix: string)
    requires NoSpace(suffix)
    ensures NoSpace(NewId(location, clock, suffix))
  {
    var date := StripDashes(Today(clock));
    DatePartDigits(clock);
    DigitsNoSpace(date);
    var head := "rec_";
    var sep := "_";
    assert NoSpace(head) && NoSpace(sep);
    var t1 := head + LocationPart(location);
    NoSpaceConcat(head, LocationPart(location));
    var t2 := t1 + sep;
    NoSpaceConcat(t1, sep);
    var t3 := t2 + date;
    NoSpaceConcat(t2, date);
    var t4 := t3 + sep;
    NoSpaceConcat(t3, sep);
    NoSpaceConcat(t4, suffix);
    assert NewId(location, clock, suffix) == t4 + suffix;
  }

  /**
    The record a new-slot form holds: every field from the initial state
    except the id, the creation time, the inspection date and the location.
   */
  function NewRecord(location: string, clock: JsDate, now: int, suffix: string): (r: InspectionRecord)
    ensures r.id == NewId(location, clock, suffix) && r.id != ""
    ensures r.createdAt == Some(now) && Key(r) == now
    ensures r.inspectionDate == Today(clock) && r.sheetName == Some(location)
    ensures r.(id := "", sheetName := None, inspectionDate := "", createdAt := None) == InitialRecordState
  {
    InitialRecordState.(id := NewId(location, clock, suffix), createdAt := Some(now),
                        inspectionDate := Today(clock), sheetName := Some(location))
  }

  /** The form's record: the record under the cursor, or a new record in new mode and empty start. */
  function FormFor(records: seq<InspectionRecord>, viewIndex: int, location: string,
                   clock: JsDate, now: int, suffix: string): (r: InspectionRecord)
    ensures 0 <= viewIndex < |records| ==> r == records[viewIndex]
    ensures !(0 <= viewIndex < |records|) ==> r == NewRecord(location, clock, now, suffix)
  {
    match CurrentRecord(records, viewIndex)
    case Some(c) => c
    case None => NewRecord(location, clock, now, suffix)
  }
}

=== FILE: wrappers.dfy ===
/** The optional value used wherever the source has `null`/`undefined`. */
module Wrappers {

  datatype Option<+T> = None | Some(value: T)
}
